=== FILE: README.md ===
# TORUM in Dafny

A model of the statable logic of TORUM, a forum with posts, reading
documents and three user roles (`user`, `moderator`, `admin`). It covers:

- the React client's session provider (login, logout, token refresh),
  mirrored into three localStorage keys, and the two-phase login page;
- the client's authorization: the route guard, `hasRole`, and the
  edit/delete visibility rule of the post detail page;
- the client's form validators and local list/record updates: sign-up,
  document upload, account management, the post list, the single-post
  page and search;
- the FastAPI backend's auth and post routes over an abstract store
  (users by email, posts by id, a token blacklist, refresh-token records),
  with bcrypt and JWT as uninterpreted functions;
- three Alembic data migrations: the `trader`→`user` role rename, the
  `valid_user_role` CHECK, and the document file-extension CHECK.

Every network call, database result, JWT and bcrypt operation is an input:
a page handler is a pure function from its state and the outcomes of the
calls it makes (`Outcome<T>`: `Ok(value)` or `Failed(detail)`) to a `Step`
(new state, the requests it sent, where it navigated). A backend route is
a pure function from a store to a `Reply` (new store, response or
`HttpError`).

Modules, one per source file: `Common`, `Text` (ASCII `toLowerCase`,
JavaScript `trim`, `slice(-n)`), `Types` (the records of
`types/index.ts`, plus `owner_role`), `AuthContext`, `LoginPage`,
`RouteGuard`, `RoleCheck`, `PostDetail`, `PostView`, `PostPage`,
`AccountManagement`, `SignupPage`, `UploadDocument`, `SearchPage`,
`Store`, `Dependencies`, `Router`, `Sql`, `RoleRename`,
`RoleConstraint`, `DocumentConstraint`, and `Consistency` (where the
client and the backend state the same rule).

Three facts about the code shape the client model: no client code reads
an access token's expiry; `ProtectedRoute` takes no role parameter; and
a refresh that fails ends with `error` null, because the `logout` it calls
runs `setError(null)` after the refresh has set its message.

Five helpers each model one JavaScript or SQL primitive. They have no row
of their own; the rows that use them state what they mean:
- `Common.Truthy` is the truthiness of a nullable string (`Common.ErrorText`, `AuthContext.Load`, `AuthContext.Logout`).
- `Text.Trim` is `trim()` (`Text.TrimEmptyIffBlank`).
- `Sql.CheckPasses` says that a CHECK on an unknown result passes (`RoleConstraint.ValidUserRole`).
- `Sql.Lower` is `lower()` (`DocumentConstraint.PathCheck`).
- `AuthContext.TemplateText` renders `${null}` as `null` (`AuthContext.Logout`).

## Model

| member | source | states |
|---|---|---|
| Common.ErrorText | TORUM/frontend/src/pages/Post.tsx:31 | the server's error detail when it is a non-empty string, otherwise the page's fallback message |
| Common.Includes | TORUM/frontend/src/utils/auth.ts:7 | `Array.prototype.includes` on strings: true exactly when the element occurs in the list |
| Text.Lower | TORUM/frontend/src/pages/UploadDocument.tsx:19 | `toLowerCase`: same length, each character lowered |
| Text.SliceLast | TORUM/frontend/src/pages/UploadDocument.tsx:19 | `slice(-n)`: for n > 0 the last min(n, length) characters, a suffix of the input; for n = 0 (`slice(-0)`) the whole string |
| Text.Utf16Length | TORUM/frontend/src/pages/Signup.tsx:21 | JavaScript `length`: between one and two units per character, equal to the character count exactly when no character lies above U+FFFF |
| Text.LowerSuffix | TORUM/frontend/src/pages/UploadDocument.tsx:19 | lowering commutes with taking a suffix |
| Text.TrimStart | TORUM/frontend/src/pages/Search.tsx:23 | drops exactly the leading whitespace: the result is a suffix, starts with a non-space or is empty, and everything dropped is whitespace |
| Text.TrimEnd | TORUM/frontend/src/pages/Search.tsx:23 | drops exactly the trailing whitespace, symmetrically |
| Text.TrimEmptyIffBlank | TORUM/frontend/src/pages/UploadDocument.tsx:24 | `!s.trim()` holds exactly when every character of s is JavaScript whitespace |
| AuthContext.Load | TORUM/frontend/src/context/AuthContext.tsx:17-30 | initial state: each token read from its key (null when absent), error null, the user JSON-parsed only when its text is truthy, and unparsable text throws |
| AuthContext.Login | TORUM/frontend/src/context/AuthContext.tsx:32-40 | installs both tokens and the user, clears error, writes all three keys (the user as its JSON), leaves every other key alone |
| AuthContext.Logout | TORUM/frontend/src/context/AuthContext.tsx:42-65 | always ends logged out with the three keys removed; calls `/logout` exactly when a refresh token is held, with `Bearer <access token>` (the text `null` when there is none) and the refresh token |
| AuthContext.RefreshAccessToken | TORUM/frontend/src/context/AuthContext.tsx:67-90 | no refresh token: no `/refresh` call, logged out; an ok response with a token replaces only the access token in state and storage; any other outcome logs out; the last write to error is always null |
| AuthContext.LogoutIgnoresServer | TORUM/frontend/src/context/AuthContext.tsx:54-64 | success, an error status and a thrown fetch all leave the same state |
| AuthContext.RefreshKeepsRefreshToken | TORUM/frontend/src/context/AuthContext.tsx:79-85 | a refresh either keeps the refresh token or logs out |
| AuthContext.TransitionsKeepMirror | TORUM/frontend/src/context/AuthContext.tsx:57-63 | refresh and logout keep localStorage an exact mirror of the state |
| AuthContext.MirroredStateSurvivesReload | TORUM/frontend/src/context/AuthContext.tsx:17-28 | a mirrored, error-free state is exactly what the initial load rebuilds from storage |
| AuthContext.LoginSurvivesReload | TORUM/frontend/src/context/AuthContext.tsx:37-39 | after `login`, a reload restores the same session |
| AuthContext.LogoutSurvivesReload | TORUM/frontend/src/context/AuthContext.tsx:61-63 | after `logout`, a reload starts anonymous |
| AuthContext.MalformedUserThrows | TORUM/frontend/src/context/AuthContext.tsx:19 | stored user text that is not JSON makes the initial load throw rather than yield null |
| LoginPage.HandleSubmit | TORUM/frontend/src/pages/Login.tsx:14-36 | tokens installed first with a placeholder user, then the profile's user; navigation to `/` iff both calls succeed; otherwise the one fixed error message |
| LoginPage.ProfileFailureKeepsPlaceholder | TORUM/frontend/src/pages/Login.tsx:19-25 | a failed profile fetch leaves the placeholder (empty id and name, role `user`, the typed email) logged in, with no logout |
| LoginPage.SuccessEqualsSingleLogin | TORUM/frontend/src/pages/Login.tsx:26-31 | after both calls succeed the session equals one `login` with the profile and identical tokens |
| LoginPage.SameMessageForEitherFailure | TORUM/frontend/src/pages/Login.tsx:33-34 | the message is the same whichever call failed |
| RouteGuard.Decide | TORUM/frontend/src/components/ProtectedRoute.tsx:12-15 | renders the children iff a user is present, otherwise redirects to `/login` |
| RouteGuard.DecisionDependsOnlyOnUser | TORUM/frontend/src/components/ProtectedRoute.tsx:13-14 | tokens and error play no part in the decision |
| RouteGuard.EveryRoleRenders | TORUM/frontend/src/components/ProtectedRoute.tsx:8-14 | no role check: every role, the empty one included, renders |
| RouteGuard.GuardFollowsSession | TORUM/frontend/src/components/ProtectedRoute.tsx:14 | after `logout` the guard redirects, after `login` it renders |
| RouteGuard.UserWithoutTokensRenders | TORUM/frontend/src/components/ProtectedRoute.tsx:13-14 | a user without tokens still renders: no token or expiry check |
| RoleCheck.HasRole | TORUM/frontend/src/utils/auth.ts:6-8 | true iff a user is present, its role is non-empty, and the role is among the required ones |
| RoleCheck.HasRoleFalseCases | TORUM/frontend/src/utils/auth.ts:7 | false with no user, with an empty role, and for an empty list |
| RoleCheck.HasRoleMonotone | TORUM/frontend/src/utils/auth.ts:7 | requiring more roles never withdraws access |
| RoleCheck.HasRoleDependsOnlyOnMembers | TORUM/frontend/src/utils/auth.ts:7 | order and repetition of the required roles do not matter |
| PostDetail.CanModify | TORUM/frontend/src/pages/PostDetail.tsx:104-106 | no user: no controls; an admin and the owner always; a non-owner moderator iff the owner's role is `user`; any other non-owner never |
| PostDetail.Render | TORUM/frontend/src/pages/PostDetail.tsx:55-61 | an error wins, then a missing post shows "Post not found.", then the post with controls when allowed and not editing |
| PostDetail.FetchPost | TORUM/frontend/src/pages/PostDetail.tsx:17-29 | no id: nothing; otherwise one `/view-post` call whose result fills the post or the error |
| PostDetail.BeginEdit | TORUM/frontend/src/pages/PostDetail.tsx:109-113 | the Edit button enters edit mode with the post's current title and content |
| PostDetail.SaveWithoutChangesResends | TORUM/frontend/src/pages/PostDetail.tsx:31-42 | saving straight after Edit sends the post's current title and content, then re-reads; a successful re-read leaves edit mode |
| PostDetail.HandleSave | TORUM/frontend/src/pages/PostDetail.tsx:31-42 | update then re-read: success replaces the post and leaves edit mode; a failure of either call sets error and keeps the post |
| PostDetail.HandleDelete | TORUM/frontend/src/pages/PostDetail.tsx:44-53 | success navigates to `/view-post`; failure sets the error |
| PostDetail.PlainUserOnlyOwnPosts | TORUM/frontend/src/pages/PostDetail.tsx:104-106 | a non-owner with role `user` never gets controls |
| PostDetail.ModeratorNeedsUserOwner | TORUM/frontend/src/pages/PostDetail.tsx:106 | a moderator cannot touch others' posts whose owner role is absent or not `user` |
| PostDetail.ErrorIsSticky | TORUM/frontend/src/pages/PostDetail.tsx:55-57 | once set, no handler clears the error, so the error view stays |
| PostView.ReplaceById | TORUM/frontend/src/pages/PostView.tsx:28-32 | same length and order; posts with the id get the new title and content and keep every other field; other posts unchanged |
| PostView.RemoveById | TORUM/frontend/src/pages/PostView.tsx:43 | keeps exactly the posts whose id differs |
| PostView.RemoveDistributes | TORUM/frontend/src/pages/PostView.tsx:43 | removal works piecewise over concatenation, so the kept posts stay in order |
| PostView.RemoveAbsentIsIdentity | TORUM/frontend/src/pages/PostView.tsx:43 | a list without the id is returned unchanged |
| PostView.RemoveIdempotent | TORUM/frontend/src/pages/PostView.tsx:43 | deleting the same id twice is the same as once |
| PostView.ReplaceKeepsIds | TORUM/frontend/src/pages/PostView.tsx:28-32 | editing never changes any post's id |
| PostView.HandleEditPost | TORUM/frontend/src/pages/PostView.tsx:25-38 | the list changes only after the update succeeds, and then the editing id is cleared; on failure only error is set |
| PostView.HandleDeletePost | TORUM/frontend/src/pages/PostView.tsx:40-48 | the list is filtered only after the delete succeeds; on failure only error is set |
| PostView.FetchPosts | TORUM/frontend/src/pages/PostView.tsx:13-23 | one `getMyPosts` call whose result fills the list or the error |
| PostView.FetchedListShown | TORUM/frontend/src/pages/PostView.tsx:13-23 | after a successful load the page shows the fetched list, unless an earlier error is still set |
| PostView.Render | TORUM/frontend/src/pages/PostView.tsx:50-52 | a non-empty error replaces the whole view |
| PostPage.HandleCreate | TORUM/frontend/src/pages/Post.tsx:19-33 | no user: no-op; success shows the new post, takes its id, clears the title, content and error fields and keeps every other cell; failure keeps the form and sets error |
| PostPage.HandleFetch | TORUM/frontend/src/pages/Post.tsx:36-49 | an empty id gives "Post ID not found !" and no call; success replaces the post and leaves edit mode |
| PostPage.HandleEdit | TORUM/frontend/src/pages/Post.tsx:52-64 | no user or post: no-op; success replaces only the shown post's title and content, leaves edit mode and keeps every other cell |
| PostPage.HandleDelete | TORUM/frontend/src/pages/Post.tsx:67-78 | no user or post: no-op; success clears the post and empties the id |
| PostPage.CreateThenFetchUsesNewId | TORUM/frontend/src/pages/Post.tsx:26 | after a create, fetching asks for the server-assigned id |
| PostPage.DeleteDisablesEditAndDelete | TORUM/frontend/src/pages/Post.tsx:54 | after a delete, edit and delete are no-ops and fetch makes no call |
| AccountManagement.BuildPayload | TORUM/frontend/src/pages/AccountManagement.tsx:52-58 | username present iff username editing is on and the name differs from the current one; password present iff password editing is on and it is non-empty |
| AccountManagement.Overlay | TORUM/frontend/src/pages/AccountManagement.tsx:67 | `{...prev, ...payload}`: present payload fields win, id, email and role are kept |
| AccountManagement.HandleUpdate | TORUM/frontend/src/pages/AccountManagement.tsx:41-75 | a mismatch while editing the password blocks; an empty payload gives "No changes to update !" and no call; success overlays the payload, resets the edit fields and keeps every other cell |
| AccountManagement.SetRole | TORUM/frontend/src/pages/AccountManagement.tsx:89-92 | users with the id get the role; everyone else is unchanged, same length and order |
| AccountManagement.HandleRoleUpdate | TORUM/frontend/src/pages/AccountManagement.tsx:77-98 | a missing user or role gives an error and no call; success updates the list and resets the selection |
| AccountManagement.Selectable | TORUM/frontend/src/pages/AccountManagement.tsx:220 | the selector offers exactly the users whose id differs from the current user's |
| AccountManagement.SelectableDistributes | TORUM/frontend/src/pages/AccountManagement.tsx:220 | the filter works piecewise over concatenation, so the offered users keep the list's order |
| AccountManagement.FetchUserData | TORUM/frontend/src/pages/AccountManagement.tsx:23-39 | loads the profile; only for an admin also loads every user; a failure sets the error |
| AccountManagement.MismatchIgnoredWhenNotEditing | TORUM/frontend/src/pages/AccountManagement.tsx:46 | differing password fields do not block while password editing is off |
| AccountManagement.RoleUpdateTargetsOnlySelection | TORUM/frontend/src/pages/AccountManagement.tsx:87-94 | after success only the selected user's role changes |
| AccountManagement.SelfNeverSelectable | TORUM/frontend/src/pages/AccountManagement.tsx:220 | the current user never appears in the selector |
| SignupPage.HasInRange | TORUM/frontend/src/pages/Signup.tsx:21 | `/[A-Z]/.test` and `/[0-9]/.test`: some character lies in the class's range |
| SignupPage.Strong | TORUM/frontend/src/pages/Signup.tsx:21 | strong iff `length` (UTF-16 units) is at least 8 and some character is an ASCII capital and some an ASCII digit; a strong password has at least 4 characters |
| SignupPage.HandleSubmit | TORUM/frontend/src/pages/Signup.tsx:14-35 | mismatch first, then strength; the call is made iff both pass; success navigates to `/login`; failure shows the detail or the fallback |
| SignupPage.AcceptedPasswordShape | TORUM/frontend/src/pages/Signup.tsx:21 | an accepted password has `length` at least 8, a capital and a digit |
| SignupPage.UpperAndDigitSuffice | TORUM/frontend/src/pages/Signup.tsx:21 | `ABCDEFG1` is strong: no lower-case letter or symbol is required |
| SignupPage.AstralCharactersCountTwice | TORUM/frontend/src/pages/Signup.tsx:21 | four emoji above U+FFFF plus `A1`, six characters, pass the 8-unit length test |
| SignupPage.MismatchReportedBeforeStrength | TORUM/frontend/src/pages/Signup.tsx:17-20 | a weak, mismatched password reports the mismatch |
| UploadDocument.ExtensionAllowed | TORUM/frontend/src/pages/UploadDocument.tsx:18-20 | the extension test admits exactly the names ending in `.pdf`, in any case |
| UploadDocument.DocxNeverAccepted | TORUM/frontend/src/pages/UploadDocument.tsx:18-20 | no `.docx` name ever passes |
| UploadDocument.FirstFailure | TORUM/frontend/src/pages/UploadDocument.tsx:14-39 | the message of the first failing check, in source order, each iff the earlier ones pass and it fails; none iff all six pass |
| UploadDocument.HandleUpload | TORUM/frontend/src/pages/UploadDocument.tsx:13-56 | upload only when all checks pass; success resets the form; loading is false afterwards whatever the outcome |
| UploadDocument.TitleLimitCountsWhitespace | TORUM/frontend/src/pages/UploadDocument.tsx:28 | the 100-unit `length` limit counts surrounding whitespace |
| SearchPage.HandleSearch | TORUM/frontend/src/pages/Search.tsx:22-37 | a blank query sets an error and makes no call; success replaces results and clears error; failure keeps results; loading ends false |
| SearchPage.ButtonEnabled | TORUM/frontend/src/pages/Search.tsx:54 | enabled iff the query is not blank and no search is running |
| SearchPage.EnabledButtonSearches | TORUM/frontend/src/pages/Search.tsx:52-54 | pressing an enabled button always issues the search |
| SearchPage.FailureKeepsResults | TORUM/frontend/src/pages/Search.tsx:32-33 | a failed search keeps the previous results |
| Store.Status | TORUM/backend/src/auth/exceptions.py:4-52 | every route error carries a 4xx or 5xx status |
| Store.Detail | TORUM/backend/src/auth/exceptions.py:4-52 | every error has a non-empty message: the exception's `detail`, or for the unhandled 500 its plain-text body |
| Store.JsonDetail | TORUM/backend/src/auth/exceptions.py:4-52 | the JSON `detail` the client receives: present, and equal to the message, exactly for the exception classes; absent for the unhandled 500 |
| Store.ExceptionTable | TORUM/backend/src/auth/exceptions.py:4-52 | the exact status and detail of each exception: 404, 400, 401, 404, 401, 404; and 500 with the plain-text body `Internal Server Error` for an unhandled error |
| Store.CredentialFailureLooksLikeNotFound | TORUM/backend/src/auth/exceptions.py:4-10 | a credential that fails to validate gets 404, the status of a missing user or post, never 401; only its detail differs |
| Store.DetailsDistinct | TORUM/backend/src/auth/exceptions.py:4-52 | different exceptions have different details |
| Dependencies.GetCurrentUser | TORUM/backend/src/auth/dependencies.py:14-31 | decode failure or a falsy `sub`: credential error; unknown email: invalid user, before the blacklist is consulted; blacklisted token: revoked; otherwise the user stored under `sub` |
| Dependencies.ReturnsSubject | TORUM/backend/src/auth/dependencies.py:23-24 | the returned user's email is the token's subject |
| Dependencies.RefreshTokenAcceptedAsAccess | TORUM/backend/src/auth/dependencies.py:17-18 | a refresh token of a known user authenticates like an access token |
| Dependencies.TypeClaimIgnored | TORUM/backend/src/auth/dependencies.py:17-31 | two unrevoked tokens with the same subject get the same answer whatever their type |
| Dependencies.MissingUserReportedBeforeRevocation | TORUM/backend/src/auth/dependencies.py:27-30 | a revoked token of a missing user reports the missing user (404) |
| Router.RegisterWithRole | TORUM/backend/src/auth/router.py:20-35 | a stored email gives `UserExistedCheck` and no change; otherwise exactly one user with the given name, email and the hash of the password, or a 500 when the insert is refused |
| Router.RegisterAsWritten | TORUM/backend/src/auth/models.py:15 | inserts role `trader`: it fails whenever the role constraint is installed |
| Router.Register | TORUM/backend/alembic/versions/fc0600dcc981_update_user_role.py:23 | the corrected route inserts role `user` and succeeds for every new email and id |
| Router.RegisterAsWrittenAlwaysFails | TORUM/backend/src/auth/router.py:27-33 | under `valid_user_role` every registration as written is a 500, while the corrected one succeeds |
| Router.RegisterAsWrittenStoresInvalidRole | TORUM/backend/src/auth/models.py:15 | without the constraint the stored role is one the constraint rejects |
| Router.IssueTokens | TORUM/backend/src/auth/router.py:54-66 | fails with a 500 and no change exactly when the new refresh token is already stored (the column is unique); otherwise tokens with `sub` = email and type access/refresh, `token_type` `bearer`, and one refresh record bound to the user appended |
| Router.LoginAsWritten | TORUM/backend/src/auth/router.py:48-53 | an unknown email dereferences None (500) and `InvalidUser` is never returned; a wrong password gives `InvalidPassword`; success iff the user exists, the password verifies and the refresh token is not already stored |
| Router.Login | TORUM/backend/src/auth/router.py:45-66 | unknown email: `InvalidUser`; wrong password: `InvalidPassword`; otherwise a 500 if the refresh token is already stored, else the tokens and the stored refresh record |
| Router.SameSecondLoginRefused | TORUM/backend/src/auth/router.py:55-61 | a second login with the same refresh expiry (the same second) builds the same token and is refused with a 500, storing nothing |
| Router.LoginKeepsRefreshTokensUnique | TORUM/backend/alembic/versions/ce39a85bcc20_initial_revision.py:64 | login never stores two records with the same refresh token |
| Router.LoginAgreesOnKnownEmails | TORUM/backend/src/auth/router.py:48-53 | for a stored email the written and corrected logins coincide |
| Router.FirstFor | TORUM/backend/src/auth/router.py:83-84 | the index of the user's first refresh record, or none when the user has none |
| Router.ExpireFirst | TORUM/backend/src/auth/router.py:83-87 | only the user's first refresh record is expired; all others are untouched |
| Router.Logout | TORUM/backend/src/auth/router.py:76-88 | authentication errors pass through unchanged; otherwise the token is blacklisted and the user's first refresh record expired, users and posts untouched |
| Router.LogoutRevokesToken | TORUM/backend/src/auth/router.py:80-82 | after a logout the same token is refused as revoked |
| Router.LogoutTwiceFails | TORUM/backend/src/auth/router.py:76-82 | a second logout with the same token fails and changes nothing |
| Router.Public | TORUM/backend/src/auth/schemas.py:12-15 | the response carries the stored row's id, username and email, and nothing else: no password hash, no role |
| Router.GetMe | TORUM/backend/src/auth/router.py:98-100 | `/me` succeeds exactly when authentication does, with the authenticated user's public record |
| Router.LoginThenMe | TORUM/backend/src/auth/router.py:54-66 | a fresh access token identifies the user who logged in |
| Router.RegisterThenLogin | TORUM/backend/src/auth/router.py:26-30 | a registered password logs in, for any hash that verifies what it hashed, exactly when the refresh token it would issue is not already stored |
| Router.CreatePost | TORUM/backend/src/auth/router.py:110-123 | an authenticated caller gets a new post owned by them with the given title and content; nothing else changes |
| Router.ViewPost | TORUM/backend/src/auth/router.py:125-132 | the stored post or a 404, with no authentication |
| Router.OwnedBy | TORUM/backend/src/auth/router.py:139-142 | the update and delete queries select a post exactly when `/view-post` would show that post with the caller as owner |
| Router.UpdatePost | TORUM/backend/src/auth/router.py:134-147 | only a post matching id and owner is updated, exactly its title and content; otherwise 404 and no change |
| Router.DeletePost | TORUM/backend/src/auth/router.py:149-159 | only a post matching id and owner is removed, exactly that one; otherwise 404 and no change |
| Router.NoRoleOverride | TORUM/backend/src/auth/router.py:139-142 | an admin who does not own a post gets 404 from update and delete, and the store is unchanged |
| Router.UpdateThenView | TORUM/backend/src/auth/router.py:143-144 | the updated title and content are what a viewer sees; id and owner kept |
| Router.DeleteThenView | TORUM/backend/src/auth/router.py:157 | a deleted post is 404 for the viewer; other posts are unaffected |
| Router.CreatorOwnsPost | TORUM/backend/src/auth/router.py:115 | the creator can view, update and delete the new post |
| Router.RoutesPreserveWellKeyed | TORUM/backend/src/auth/router.py:20-159 | every route keeps each user under its own email and each post under its own id |
| Router.CorrectedRoutesPreserveRoles | TORUM/backend/alembic/versions/739a922e97ec_update_user_role_add_constraint.py:23 | the corrected routes keep every stored role valid under `valid_user_role` |
| Sql.InList | TORUM/backend/alembic/versions/739a922e97ec_update_user_role_add_constraint.py:23 | SQL `IN`: unknown for NULL, otherwise membership |
| Sql.Right | TORUM/backend/alembic/versions/1dd0b1e19c5a_update_document_constraints.py:23 | `right(s, n)`: the last n characters, or the whole string when shorter |
| RoleRename.Upgrade | TORUM/backend/alembic/versions/fc0600dcc981_update_user_role.py:21-24 | default `user`, same rows, and no row left `trader` |
| RoleRename.Downgrade | TORUM/backend/alembic/versions/fc0600dcc981_update_user_role.py:26-29 | default `trader`, same rows, and no row left `user` |
| RoleRename.Rename | TORUM/backend/alembic/versions/fc0600dcc981_update_user_role.py:24 | rows with the old role get the new one; others, NULL included, are unchanged |
| RoleRename.UpgradeEffect | TORUM/backend/alembic/versions/fc0600dcc981_update_user_role.py:23-24 | no `trader` row is left, `trader` became `user`, other rows unchanged, default `user` |
| RoleRename.UpgradeIdempotent | TORUM/backend/alembic/versions/fc0600dcc981_update_user_role.py:24 | upgrading twice equals upgrading once |
| RoleRename.DowngradeEffect | TORUM/backend/alembic/versions/fc0600dcc981_update_user_role.py:28-29 | every `user` becomes `trader`, others unchanged, default `trader` |
| RoleRename.RoundTripMergesRoles | TORUM/backend/alembic/versions/fc0600dcc981_update_user_role.py:24-29 | downgrade after upgrade sends former `trader` and former `user` rows alike to `trader` |
| RoleRename.RoundTripLosesUserRows | TORUM/backend/alembic/versions/fc0600dcc981_update_user_role.py:29 | so the round trip is not the identity once a `user` row existed |
| RoleConstraint.ValidUserRole | TORUM/backend/alembic/versions/739a922e97ec_update_user_role_add_constraint.py:23 | NULL passes; a non-null role passes iff it is `user`, `moderator` or `admin` |
| RoleConstraint.Upgrade | TORUM/backend/alembic/versions/739a922e97ec_update_user_role_add_constraint.py:21-23 | adding the constraint succeeds iff it is not there yet and every row passes |
| RoleConstraint.Downgrade | TORUM/backend/alembic/versions/739a922e97ec_update_user_role_add_constraint.py:25-27 | dropping without `IF EXISTS` fails when the constraint is absent |
| RoleConstraint.DefaultsAgainstConstraint | TORUM/backend/src/auth/models.py:15 | the model's default `trader` violates the constraint; the migrated default `user` satisfies it |
| RoleConstraint.RenameThenConstrainSucceeds | TORUM/backend/alembic/versions/739a922e97ec_update_user_role_add_constraint.py:16-23 | after its parent revision, the constraint can be added to any table of legacy roles |
| RoleConstraint.TraderRowBlocksConstraint | TORUM/backend/alembic/versions/739a922e97ec_update_user_role_add_constraint.py:23 | without the rename, one `trader` row makes adding the constraint fail |
| RoleConstraint.DowngradeUndoesUpgrade | TORUM/backend/alembic/versions/739a922e97ec_update_user_role_add_constraint.py:25-27 | downgrade restores the table a successful upgrade started from |
| DocumentConstraint.PathCheck | TORUM/backend/alembic/versions/1dd0b1e19c5a_update_document_constraints.py:23 | a path passes iff its lowered last four characters (the whole path when shorter) are `.pdf` or `.docx` |
| DocumentConstraint.PathCheckIffPdf | TORUM/backend/alembic/versions/1dd0b1e19c5a_update_document_constraints.py:23 | exactly the paths ending in `.pdf`, in any case, pass |
| DocumentConstraint.IntendedPathCheck | TORUM/backend/alembic/versions/1dd0b1e19c5a_update_document_constraints.py:23 | the intended test: a path passes iff it ends in `.pdf` or in `.docx`, in any case |
| DocumentConstraint.IntendedAddsDocx | TORUM/backend/alembic/versions/1dd0b1e19c5a_update_document_constraints.py:23 | every `.docx` path is refused by the written CHECK and admitted by the intended one, which admits everything the written one does |
| DocumentConstraint.UpdateWhere | TORUM/backend/alembic/versions/1dd0b1e19c5a_update_document_constraints.py:24 | a conditional UPDATE: matching rows get the assigned value, the rest are kept, same row count |
| DocumentConstraint.SelfAssignmentIsNoOp | TORUM/backend/alembic/versions/1dd0b1e19c5a_update_document_constraints.py:24 | assigning the column to itself changes no row |
| DocumentConstraint.Upgrade | TORUM/backend/alembic/versions/1dd0b1e19c5a_update_document_constraints.py:21-24 | succeeds iff the constraint is absent and every path passes, leaving the paths unchanged |
| DocumentConstraint.Downgrade | TORUM/backend/alembic/versions/1dd0b1e19c5a_update_document_constraints.py:26-28 | `IF EXISTS`: never fails and leaves the rows alone |
| DocumentConstraint.DowngradeIdempotent | TORUM/backend/alembic/versions/1dd0b1e19c5a_update_document_constraints.py:28 | downgrading twice is as good as once |
| DocumentConstraint.DocxPathBlocksUpgrade | TORUM/backend/alembic/versions/1dd0b1e19c5a_update_document_constraints.py:23 | any stored `.docx` path makes the upgrade fail |
| Consistency.ExtensionChecksAgree | TORUM/frontend/src/pages/UploadDocument.tsx:18-20 | the client's extension test and the database CHECK accept the same names |
| Consistency.ServerDetailShown | TORUM/frontend/src/pages/Post.tsx:31 | an exception's detail reaches the pages and `detail \|\| fallback` shows it; for the unhandled 500 the page shows its fallback |
| Consistency.ControlsOfferedButRefused | TORUM/frontend/src/pages/PostDetail.tsx:104-106 | a non-owner shown the controls (admin, or moderator on a `user`'s post) gets 404 from both post routes |
| Consistency.OwnerControlsHonoured | TORUM/backend/src/auth/router.py:139 | for the owner the controls are shown and both routes succeed |

## Left out

- Rendering, styling, `alert`, `window.open`, date formatting: UI only.
- `Navbar.tsx`, `App.tsx`, `Home.tsx`, `DocumentList.tsx`: navigation and display; only the logout transition the navbar triggers is modelled.
- `services/api.ts`: every API call is an abstract outcome. Its quirks are not modelled: it reads the key `token` where the session writes `access_token`, builds a literal `'Bearer ${token}'`, and posts the field `email` where the backend reads `username`.
- `services.py`, `utils.py`: bcrypt, jose and S3 are uninterpreted functions or left out; token expiry lives inside `decode`, which rejects expired tokens.
- The migrations other than the three modelled, engine setup, settings, and `src/main.py`'s `drop_all`/`create_all` at start-up.
- `post_route` is not mounted in `src/main.py`, and `Post` and `Refresh_Token` are imported from a `models.py` that does not define them; the post routes and refresh records are modelled as intended anyway, with the `refresh_token` table of `ce39a85bcc20` (unique token column), which `86f68104fe8a` later drops.
- The pages import `getMyPosts`, `getPostById`, `getUser`, `getAllUsers`, `updateUser`, `updateUserRole`, `uploadReadingDocument` and `search` from `services/api.ts`, which does not define them, and `AuthContext.tsx` posts to `/refresh`, which `router.py` has no route for; each of these calls is modelled with its outcome as a parameter.
- Concurrency: concurrent refreshes, React state batching, and the navbar's un-awaited logout. Each handler is one sequential step, and the last write wins.
- `console.error` output, and the `isLoading` flag while a request is in flight: only the state after the awaited call is modelled.
- `PermissionException` (403) and `FileUploadFailed` (500): no route raises them, so `HttpError` has no constructor for them.
- Request validation by pydantic (`EmailStr`, missing fields give 422 before a route runs).
- Post and user ids are taken to be well-formed UUID text: a `/view-post`, `/update-post` or `/delete-post` id that is not a UUID fails in the database driver with a 500 rather than `PostNotFound`.
- Timestamps (`created_at`, `updated_at`, the JWT `exp`): opaque values or left out; ids from `uuid4`/`gen_random_uuid` are parameters.
- Text.Lower: lowers ASCII letters only, whereas `toLowerCase` and SQL `lower` also lower other scripts; every literal compared against is ASCII.
- AuthContext.RefreshAccessToken: a 2xx response whose JSON lacks `access_token` (which would store `undefined`) is treated like a failed response.
- Router.Logout: "first" refresh record means first in storage order; the query has no ORDER BY, so the database may pick another.

## Findings

| source | as written | input that shows it | evidently intended | confidence | as-written member | corrected member |
|---|---|---|---|---|---|---|
| TORUM/backend/src/auth/router.py:48-53 | verifies the password against `user.hashed_password` before testing `user` | a login with an email no user has: `None.hashed_password` raises, the client gets a 500, and the `InvalidUser` 404 is unreachable | test for a missing user first and raise `InvalidUser` | not executed; high | Router.LoginAsWritten | Router.Login |
| TORUM/backend/src/auth/models.py:15 | the ORM column default is `trader`, so every registration inserts `trader` | registering any new email once `valid_user_role` is installed: the INSERT violates the CHECK and the route fails with a 500; without the constraint, `trader` is stored, a role the constraint and the client's role checks do not know (`Router.RegisterAsWrittenAlwaysFails`) | default `user`, as the rename migration set on the server side | not executed; medium | Router.RegisterAsWritten | Router.Register |
| TORUM/backend/alembic/versions/1dd0b1e19c5a_update_document_constraints.py:23 | compares the last four characters against `.pdf` and the five-character `.docx` | any path ending in `.docx`, such as `a.docx`: `right(path, 4)` is `docx`, so the CHECK refuses the row (and the client's matching `slice(-4)` test refuses the file) (`DocumentConstraint.IntendedAddsDocx`) | compare `.docx` against the last five characters; the migration and the client, which agree with each other, stay modelled as written | not executed; high | DocumentConstraint.PathCheck | DocumentConstraint.IntendedPathCheck |

=== FILE: account.dfy ===
/** `pages/AccountManagement.tsx`: loading the profile (and, for an admin,
    every user), building the account update payload, and the admin's role
    update with its self-excluding user list. */
module AccountManagement {
  import opened Common
  import opened Types

  const FetchFailedMessage: string := "Failed to fetch user data!"
  const MismatchMessage: string := "New password does not match !"
  const NoChangesMessage: string := "No changes to update !"
  const UpdatedMessage: string := "Account Updated Successfully !"
  const UpdateFailedMessage: string := "Failed to update account !"
  const SelectMessage: string := "Please select a user and a role!"
  const RoleUpdatedMessage: string := "User role updated successfully!"
  const RoleFailedMessage: string := "Failed to update user role!"

  /** The page's state cells. */
  datatype Account = Account(currentUser: Option<User>, allUsers: seq<User>, error: string, success: string,
                             editingUsername: bool, editingPassword: bool, editUsername: string,
                             newPassword: string, confirmNewPassword: string,
                             selectedUserId: string, newRole: string)

  /** The update payload: each field present or absent. */
  datatype Payload = Payload(username: Option<string>, password: Option<string>)

  /** `editUsername !== currentUser?.username`; with no current user the
      right side is `undefined`, which no string equals. */
  predicate UsernameChanged(s: Account) {
    s.currentUser.None? || s.editUsername != s.currentUser.value.username
  }

  /** The payload `handleUpdate` assembles. */
  function BuildPayload(s: Account): (p: Payload)
    ensures p.username.Some? <==> s.editingUsername && UsernameChanged(s)
    ensures p.username.Some? ==> p.username.value == s.editUsername
    ensures p.password.Some? <==> s.editingPassword && s.newPassword != ""
    ensures p.password.Some? ==> p.password.value == s.newPassword
  {
    Payload(if s.editingUsername && UsernameChanged(s) then Some(s.editUsername) else None,
            if s.editingPassword && s.newPassword != "" then Some(s.newPassword) else None)
  }

  /** `{ ...prev, ...payload }`: the payload's present fields win. */
  function Overlay(u: User, p: Payload): (r: User)
    ensures r.userId == u.userId && r.email == u.email && r.userRole == u.userRole
    ensures r.username == (if p.username.Some? then p.username.value else u.username)
    ensures r.password == (if p.password.Some? then p.password else u.password)
  {
    u.(username := if p.username.Some? then p.username.value else u.username,
       password := if p.password.Some? then p.password else u.password)
  }

  /** `handleUpdate`. */
  function HandleUpdate(s: Account, update: Outcome<()>): (r: Step<Account>)
    ensures s.editingPassword && s.newPassword != s.confirmNewPassword ==>
              r == Step(s.(error := MismatchMessage, success := ""), [], None)
    ensures !(s.editingPassword && s.newPassword != s.confirmNewPassword) && BuildPayload(s) == Payload(None, None) ==>
              r == Step(s.(error := NoChangesMessage, success := ""), [], None)
    ensures r.calls != [] <==>
              !(s.editingPassword && s.newPassword != s.confirmNewPassword) && BuildPayload(s) != Payload(None, None)
    ensures r.calls != [] ==>
              r.calls == [UpdateUserCall(BuildPayload(s).username, BuildPayload(s).password)]
    ensures r.calls != [] && update.Ok? ==>
              r.state == s.(currentUser := if s.currentUser.Some? then Some(Overlay(s.currentUser.value, BuildPayload(s)))
                                           else None,
                            editingUsername := false, editingPassword := false,
                            newPassword := "", confirmNewPassword := "",
                            success := UpdatedMessage, error := "")
    ensures r.calls != [] && update.Failed? ==>
              r.state == s.(error := ErrorText(update.detail, UpdateFailedMessage), success := "")
    ensures r.navigate.None?
  {
    var cleared := s.(error := "", success := "");
    if s.editingPassword && s.newPassword != s.confirmNewPassword then
      Step(cleared.(error := MismatchMessage), [], None)
    else
      var p := BuildPayload(s);
      if p == Payload(None, None) then Step(cleared.(error := NoChangesMessage), [], None)
      else
        var call := UpdateUserCall(p.username, p.password);
        match update
        case Ok(_) =>
          var current := if s.currentUser.Some? then Some(Overlay(s.currentUser.value, p)) else None;
          Step(cleared.(success := UpdatedMessage, currentUser := current, editingUsername := false,
                        editingPassword := false, newPassword := "", confirmNewPassword := ""),
               [call], None)
        case Failed(detail) => Step(cleared.(error := ErrorText(detail, UpdateFailedMessage)), [call], None)
  }

  /** The `map` of `handleRoleUpdate`: the users with the id get the role. */
  function SetRole(users: seq<User>, id: string, role: string): (r: seq<User>)
    ensures |r| == |users|
    ensures forall i :: 0 <= i < |users| && users[i].userId == id ==> r[i] == users[i].(userRole := role)
    ensures forall i :: 0 <= i < |users| && users[i].userId != id ==> r[i] == users[i]
  {
    if |users| == 0 then []
    else
      var head := if users[0].userId == id then users[0].(userRole := role) else users[0];
      [head] + SetRole(users[1..], id, role)
  }

  /** `handleRoleUpdate`. */
  function HandleRoleUpdate(s: Account, update: Outcome<()>): (r: Step<Account>)
    ensures s.selectedUserId == "" || s.newRole == "" ==>
              r == Step(s.(error := SelectMessage, success := ""), [], None)
    ensures s.selectedUserId != "" && s.newRole != "" ==>
              r.calls == [UpdateUserRoleCall(s.selectedUserId, s.newRole)] && r.navigate.None?
    ensures s.selectedUserId != "" && s.newRole != "" && update.Ok? ==>
              r.state == s.(allUsers := SetRole(s.allUsers, s.selectedUserId, s.newRole),
                            selectedUserId := "", newRole := "", error := "", success := RoleUpdatedMessage)
    ensures s.selectedUserId != "" && s.newRole != "" && update.Failed? ==>
              r.state == s.(error := ErrorText(update.detail, RoleFailedMessage), success := "")
  {
    var cleared := s.(error := "", success := "");
    if s.selectedUserId == "" || s.newRole == "" then Step(cleared.(error := SelectMessage), [], None)
    else
      var call := UpdateUserRoleCall(s.selectedUserId, s.newRole);
      match update
      case Ok(_) =>
        Step(cleared.(success := RoleUpdatedMessage, allUsers := SetRole(s.allUsers, s.selectedUserId, s.newRole),
                      selectedUserId := "", newRole := ""),
             [call], None)
      case Failed(detail) => Step(cleared.(error := ErrorText(detail, RoleFailedMessage)), [call], None)
  }

  /** The users offered in the role selector: everyone except the current
      user (no one is excluded while the profile is not loaded). */
  function Selectable(users: seq<User>, current: Option<User>): (r: seq<User>)
    ensures forall u :: u in r <==> u in users && (current.None? || u.userId != current.value.userId)
  {
    if |users| == 0 then []
    else
      var rest := Selectable(users[1..], current);
      if current.Some? && users[0].userId == current.value.userId then rest else [users[0]] + rest
  }

  /** Selecting works piecewise over concatenation, so the offered users
      keep the order of the list. */
  lemma {:induction false} SelectableDistributes(a: seq<User>, b: seq<User>, current: Option<User>)
    ensures Selectable(a + b, current) == Selectable(a, current) + Selectable(b, current)
  {
    if |a| == 0 {
      assert a + b == b;
    } else {
      assert (a + b)[0] == a[0];
      assert (a + b)[1..] == a[1..] + b;
      SelectableDistributes(a[1..], b, current);
    }
  }

  /** The effect that loads the profile and, for an admin, all users. */
  function FetchUserData(s: Account, authUser: Option<User>, me: Outcome<User>, users: Outcome<seq<User>>)
    : (r: Step<Account>)
    ensures me.Failed? ==>
              r == Step(s.(error := ErrorText(me.detail, FetchFailedMessage)), [GetUserCall], None)
    ensures me.Ok? && !(authUser.Some? && authUser.value.userRole == "admin") ==>
              r == Step(s.(currentUser := Some(me.value), editUsername := me.value.username), [GetUserCall], None)
    ensures me.Ok? && authUser.Some? && authUser.value.userRole == "admin" ==>
              && r.calls == [GetUserCall, GetAllUsersCall]
              && r.state.currentUser == Some(me.value) && r.state.editUsername == me.value.username
              && (users.Ok? ==> r.state.allUsers == users.value)
              && (users.Failed? ==> r.state.allUsers == s.allUsers
                                    && r.state.error == ErrorText(users.detail, FetchFailedMessage))
  {
    match me
    case Failed(detail) => Step(s.(error := ErrorText(detail, FetchFailedMessage)), [GetUserCall], None)
    case Ok(u) =>
      var loaded := s.(currentUser := Some(u), editUsername := u.username);
      if authUser.Some? && authUser.value.userRole == "admin" then
        match users
        case Ok(all) => Step(loaded.(allUsers := all), [GetUserCall, GetAllUsersCall], None)
        case Failed(detail) =>
          Step(loaded.(error := ErrorText(detail, FetchFailedMessage)), [GetUserCall, GetAllUsersCall], None)
      else Step(loaded, [GetUserCall], None)
  }

  /** The mismatch check only matters while the password is being edited:
      with password editing off, differing password fields never block. */
  lemma MismatchIgnoredWhenNotEditing(s: Account, update: Outcome<()>)
    requires !s.editingPassword && s.newPassword != s.confirmNewPassword
    ensures var r := HandleUpdate(s, update);
            r.calls == [] ==> r.state.error == NoChangesMessage
  {
  }

  /** After a successful role update the selected user carries the new role
      and every other user is unchanged. */
  lemma {:induction false} RoleUpdateTargetsOnlySelection(s: Account)
    requires s.selectedUserId != "" && s.newRole != ""
    ensures var r := HandleRoleUpdate(s, Ok(())).state;
            && |r.allUsers| == |s.allUsers|
            && (forall i :: 0 <= i < |s.allUsers| ==>
                  r.allUsers[i].userId == s.allUsers[i].userId
                  && (s.allUsers[i].userId == s.selectedUserId ==> r.allUsers[i].userRole == s.newRole)
                  && (s.allUsers[i].userId != s.selectedUserId ==> r.allUsers[i] == s.allUsers[i]))
  {
  }

  /** The current user never appears in the selector. */
  lemma SelfNeverSelectable(users: seq<User>, me: User)
    ensures forall u :: u in Selectable(users, Some(me)) ==> u.userId != me.userId
  {
  }
}

=== FILE: auth_context.dfy ===
/** The session provider of `context/AuthContext.tsx`: four state cells
    (user, access token, refresh token, error) mirrored into three
    localStorage keys, and the `login`, `logout` and `refreshAccessToken`
    transitions. The `/logout` and `/refresh` fetches are parameters; the
    user record's JSON text is produced and read by `stringify`/`parse`. */
module AuthContext {
  import opened Common
  import opened Types

  const AccessKey: string := "access_token"
  const RefreshKey: string := "refresh_token"
  const UserKey: string := "user"

  const NoRefreshTokenMessage: string := "No refresh token available !"
  const SessionExpiredMessage: string := "Session expired. Please log in again."

  /** The browser's localStorage: string keys to string values. */
  type Storage = map<string, string>

  /** The provider's state together with the storage it writes. */
  datatype Auth = Auth(user: Option<User>, accessToken: Option<string>, refreshToken: Option<string>,
                       error: Option<string>, storage: Storage)

  /** How an awaited `fetch` ended: a response with its HTTP status, or a
      rejection (the network was unreachable). */
  datatype FetchOutcome = Responded(status: int) | NetworkError

  /** How the `/refresh` fetch ended. `accessToken` is the `access_token` of
      the JSON body, None when reading the body as JSON rejects. */
  datatype RefreshOutcome = RefreshResponded(status: int, accessToken: Option<string>) | RefreshNetworkError

  /** `response.ok`. */
  predicate ResponseOk(status: int) {
    200 <= status <= 299
  }

  /** The refresh call produced a new access token. */
  predicate Renewed(response: RefreshOutcome) {
    response.RefreshResponded? && ResponseOk(response.status) && response.accessToken.Some?
  }

  /** Reading the stored user throws when its text is not valid JSON. */
  datatype LoadError = MalformedStoredUser

  function Lookup(m: Storage, k: string): Option<string> {
    if k in m then Some(m[k]) else None
  }

  /** The value under k is v, or k is absent when v is None. */
  predicate StoredAs(m: Storage, k: string, v: Option<string>) {
    if v.Some? then k in m && m[k] == v.value else k !in m
  }

  /** The three keys mirror the three cells, the user as its JSON text. */
  predicate Mirrors(a: Auth, stringify: User -> string) {
    && StoredAs(a.storage, AccessKey, a.accessToken)
    && StoredAs(a.storage, RefreshKey, a.refreshToken)
    && StoredAs(a.storage, UserKey, if a.user.Some? then Some(stringify(a.user.value)) else None)
  }

  /** Keys other than the three session keys are untouched. */
  ghost predicate OtherKeysUnchanged(m: Storage, m': Storage) {
    forall k :: k != AccessKey && k != RefreshKey && k != UserKey ==>
      (k in m <==> k in m') && (k in m ==> m[k] == m'[k])
  }

  /** The anonymous state: no user, no tokens, no error, no session keys. */
  predicate LoggedOut(a: Auth) {
    && a.user.None? && a.accessToken.None? && a.refreshToken.None? && a.error.None?
    && AccessKey !in a.storage && RefreshKey !in a.storage && UserKey !in a.storage
  }

  /** The initial state of the provider: each cell read from its key. The
      user text is parsed only when it is truthy (a stored "" gives no
      user), and `parse` yields None when `JSON.parse` throws, Some(None)
      for the JSON text `null`. */
  function Load(storage: Storage, parse: string -> Option<Option<User>>): (r: Result<Auth, LoadError>)
    ensures r.Success? ==> && r.value.accessToken == Lookup(storage, AccessKey)
                           && r.value.refreshToken == Lookup(storage, RefreshKey)
                           && r.value.error.None? && r.value.storage == storage
    ensures !Truthy(Lookup(storage, UserKey)) ==> r.Success? && r.value.user.None?
    ensures Truthy(Lookup(storage, UserKey)) ==>
              (r.Failure? <==> parse(storage[UserKey]).None?)
              && (r.Success? ==> r.value.user == parse(storage[UserKey]).value)
  {
    var stored := Lookup(storage, UserKey);
    var user :- if Truthy(stored) then
                  (match parse(stored.value)
                   case None => Failure(MalformedStoredUser)
                   case Some(u) => Success(u))
                else Success(None);
    Success(Auth(user, Lookup(storage, AccessKey), Lookup(storage, RefreshKey), None, storage))
  }

  /** `login`: install both tokens and the user, clear the error, and write
      all three keys. */
  function Login(a: Auth, accessToken: string, refreshToken: string, user: User,
                 stringify: User -> string): (r: Auth)
    ensures r.user == Some(user) && r.accessToken == Some(accessToken) && r.refreshToken == Some(refreshToken)
    ensures r.error.None?
    ensures Mirrors(r, stringify)
    ensures OtherKeysUnchanged(a.storage, r.storage)
  {
    Auth(Some(user), Some(accessToken), Some(refreshToken), None,
         a.storage[AccessKey := accessToken][RefreshKey := refreshToken][UserKey := stringify(user)])
  }

  /** A template literal's rendering of a nullable string. */
  function TemplateText(s: Option<string>): string {
    if s.Some? then s.value else "null"
  }

  /** `logout`: tell the server only when a refresh token is held (with the
      current access token as bearer), then clear everything whatever the
      server did; `server` only reaches `console.error`. */
  function Logout(a: Auth, server: FetchOutcome): (r: Step<Auth>)
    ensures LoggedOut(r.state)
    ensures OtherKeysUnchanged(a.storage, r.state.storage)
    ensures Truthy(a.refreshToken) ==>
              r.calls == [LogoutFetch("Bearer " + TemplateText(a.accessToken), a.refreshToken.value)]
    ensures !Truthy(a.refreshToken) ==> r.calls == []
    ensures r.navigate.None?
  {
    var calls := if Truthy(a.refreshToken)
                 then [LogoutFetch("Bearer " + TemplateText(a.accessToken), a.refreshToken.value)]
                 else [];
    Step(Auth(None, None, None, None, a.storage - {AccessKey, RefreshKey, UserKey}), calls, None)
  }

  /** One run of `refreshAccessToken`: the final state, the requests sent,
      and every value written to `error`, in order. */
  datatype Refreshed = Refreshed(state: Auth, calls: seq<ApiCall>, errorWrites: seq<Option<string>>)

  /** Set an error message, then log out: the failure path of a refresh. */
  function FailRefresh(a: Auth, message: string, earlier: seq<ApiCall>, server: FetchOutcome): Refreshed {
    var out := Logout(a.(error := Some(message)), server);
    Refreshed(out.state, earlier + out.calls, [Some(message), None])
  }

  /** `refreshAccessToken`. Without a refresh token it never calls
      `/refresh` and logs out; a renewed token replaces only the access
      token; every other response ends logged out. */
  function RefreshAccessToken(a: Auth, response: RefreshOutcome, logoutServer: FetchOutcome): (r: Refreshed)
    ensures !Truthy(a.refreshToken) ==> LoggedOut(r.state) && r.calls == []
    ensures !Truthy(a.refreshToken) ==> r.errorWrites == [Some(NoRefreshTokenMessage), None]
    ensures Truthy(a.refreshToken) ==> |r.calls| > 0 && r.calls[0] == RefreshFetch(a.refreshToken.value)
    ensures Truthy(a.refreshToken) && Renewed(response) ==>
              && r.state.accessToken == response.accessToken
              && r.state.refreshToken == a.refreshToken && r.state.user == a.user && r.state.error.None?
              && StoredAs(r.state.storage, AccessKey, response.accessToken)
              && StoredAs(r.state.storage, RefreshKey, Lookup(a.storage, RefreshKey))
              && StoredAs(r.state.storage, UserKey, Lookup(a.storage, UserKey))
              && OtherKeysUnchanged(a.storage, r.state.storage)
              && r.calls == [RefreshFetch(a.refreshToken.value)]
    ensures Truthy(a.refreshToken) && !Renewed(response) ==>
              && LoggedOut(r.state)
              && r.calls == [RefreshFetch(a.refreshToken.value),
                             LogoutFetch("Bearer " + TemplateText(a.accessToken), a.refreshToken.value)]
              && r.errorWrites == [Some(SessionExpiredMessage), None]
    ensures r.state.error.None? && |r.errorWrites| > 0 && r.errorWrites[|r.errorWrites| - 1].None?
  {
    if !Truthy(a.refreshToken) then
      FailRefresh(a, NoRefreshTokenMessage, [], logoutServer)
    else
      var call := RefreshFetch(a.refreshToken.value);
      if Renewed(response) then
        var token := response.accessToken.value;
        Refreshed(a.(accessToken := Some(token), error := None, storage := a.storage[AccessKey := token]),
                  [call], [None])
      else
        FailRefresh(a, SessionExpiredMessage, [call], logoutServer)
  }

  /** The outcome of the `/logout` notification never changes what logout
      leaves behind. */
  lemma LogoutIgnoresServer(a: Auth, o1: FetchOutcome, o2: FetchOutcome)
    ensures Logout(a, o1) == Logout(a, o2)
  {
  }

  /** A refresh never changes the refresh token unless it logs out. */
  lemma RefreshKeepsRefreshToken(a: Auth, response: RefreshOutcome, server: FetchOutcome)
    ensures var r := RefreshAccessToken(a, response, server);
            r.state.refreshToken == a.refreshToken || LoggedOut(r.state)
  {
  }

  /** Every transition keeps localStorage a mirror of the state. */
  lemma TransitionsKeepMirror(a: Auth, stringify: User -> string, response: RefreshOutcome, server: FetchOutcome)
    requires Mirrors(a, stringify)
    ensures Mirrors(RefreshAccessToken(a, response, server).state, stringify)
    ensures Mirrors(Logout(a, server).state, stringify)
  {
  }

  /** A mirrored, error-free state is exactly what a reload reconstructs,
      provided the user's JSON text is non-empty and parses back to it. */
  lemma {:induction false} MirroredStateSurvivesReload(a: Auth, stringify: User -> string,
                                                        parse: string -> Option<Option<User>>)
    requires Mirrors(a, stringify) && a.error.None?
    requires a.user.Some? ==> stringify(a.user.value) != "" && parse(stringify(a.user.value)) == Some(a.user)
    ensures Load(a.storage, parse) == Success(a)
  {
    assert Lookup(a.storage, AccessKey) == a.accessToken;
    assert Lookup(a.storage, RefreshKey) == a.refreshToken;
    if a.user.Some? {
      assert Lookup(a.storage, UserKey) == Some(stringify(a.user.value));
    } else {
      assert Lookup(a.storage, UserKey).None?;
    }
  }

  /** After `login`, a page reload restores the same session. */
  lemma LoginSurvivesReload(a: Auth, accessToken: string, refreshToken: string, user: User,
                            stringify: User -> string, parse: string -> Option<Option<User>>)
    requires stringify(user) != "" && parse(stringify(user)) == Some(Some(user))
    ensures Load(Login(a, accessToken, refreshToken, user, stringify).storage, parse)
            == Success(Login(a, accessToken, refreshToken, user, stringify))
  {
    MirroredStateSurvivesReload(Login(a, accessToken, refreshToken, user, stringify), stringify, parse);
  }

  /** After `logout`, a page reload starts anonymous. */
  lemma LogoutSurvivesReload(a: Auth, server: FetchOutcome, parse: string -> Option<Option<User>>)
    ensures Load(Logout(a, server).state.storage, parse) == Success(Logout(a, server).state)
  {
    var s := Logout(a, server).state;
    assert Lookup(s.storage, UserKey).None?;
    assert Lookup(s.storage, AccessKey).None? && Lookup(s.storage, RefreshKey).None?;
  }

  /** Stored user text that is not JSON makes the initial load throw. */
  lemma MalformedUserThrows(storage: Storage, parse: string -> Option<Option<User>>)
    requires UserKey in storage && storage[UserKey] != "" && parse(storage[UserKey]).None?
    ensures Load(storage, parse) == Failure(MalformedStoredUser)
  {
    assert Lookup(storage, UserKey) == Some(storage[UserKey]);
  }
}

=== FILE: common.dfy ===
/** Shared shapes: optional values, success/failure results, and the outcome
    of an awaited API call as a page's `try`/`catch` sees it. */
module Common {

  /** A nullable value (`T | null` in the client, `None` in the backend). */
  datatype Option<+T> = None | Some(value: T)

  /** A value or the error that was raised instead. */
  datatype Result<+T, +E> = Success(value: T) | Failure(error: E) {
    predicate IsFailure() {
      Failure?
    }

    function PropagateFailure<U>(): Result<U, E>
      requires Failure?
    {
      Failure(error)
    }

    function Extract(): T
      requires Success?
    {
      value
    }
  }

  /** An awaited API call either resolved with a value or rejected; a
      rejection carries the server's `detail` text when the response had one
      (a network error or an error body without `detail` carries None). */
  datatype Outcome<+T> = Ok(value: T) | Failed(detail: Option<string>)

  /** JavaScript truthiness of a nullable string: null and "" are falsy. */
  predicate Truthy(s: Option<string>) {
    s.Some? && s.value != ""
  }

  /** The pages' `err.response?.data?.detail || fallback`. */
  function ErrorText(detail: Option<string>, fallback: string): (r: string)
    ensures Truthy(detail) ==> r == detail.value
    ensures !Truthy(detail) ==> r == fallback
  {
    if Truthy(detail) then detail.value else fallback
  }

  /** `Array.prototype.includes`: a left-to-right scan for an equal element. */
  function Includes<T(==)>(xs: seq<T>, x: T): (r: bool)
    ensures r <==> x in xs
  {
    if |xs| == 0 then false
    else if xs[0] == x then true
    else Includes(xs[1..], x)
  }
}

=== FILE: consistency.dfy ===
/** Where the client and the backend state the same rule twice: the upload
    extension test against the database CHECK, and the post controls the
    client shows against what the post routes allow. */
module Consistency {
  import opened Common
  import opened Types
  import UploadDocument
  import DocumentConstraint
  import PostDetail
  import Store
  import Dependencies
  import Router

  /** The client's extension test and the `check_docs_file_path_extension`
      constraint accept exactly the same names. */
  lemma ExtensionChecksAgree(name: string)
    ensures UploadDocument.ExtensionAllowed(name) == DocumentConstraint.PathCheck(name)
  {
    DocumentConstraint.PathCheckIffPdf(name);
  }

  /** An error a route raises reaches the pages as its own detail text, so
      `detail || fallback` shows it; only the unhandled 500, whose body
      carries no `detail`, makes the page fall back. */
  lemma ServerDetailShown(e: Store.HttpError, fallback: string)
    ensures e != Store.InternalServerError ==> ErrorText(Store.JsonDetail(e), fallback) == Store.Detail(e)
    ensures e == Store.InternalServerError ==> ErrorText(Store.JsonDetail(e), fallback) == fallback
  {
  }

  /** The client user and the server row describe the same account. */
  predicate SameAccount(u: User, row: Store.UserRow) {
    u.userId == row.userId && row.userRole == Some(u.userRole)
  }

  /** The post shown and the stored post are the same post. */
  predicate SamePost(p: Post, row: Store.PostRow) {
    p.postId == row.postId && p.postOwner == row.postOwner
  }

  /** Someone other than the owner whom the client offers the controls to
      (an admin, or a moderator on a `user`'s post) is refused by both
      routes with a 404, and nothing changes. */
  lemma ControlsOfferedButRefused(db: Store.Db, token: string, crypto: Store.Crypto, u: User, p: Post,
                                  title: string, content: string)
    requires Dependencies.GetCurrentUser(db, token, crypto).Success?
    requires SameAccount(u, Dependencies.GetCurrentUser(db, token, crypto).value)
    requires p.postId in db.posts && SamePost(p, db.posts[p.postId])
    requires p.postOwner != u.userId
    requires PostDetail.CanModify(Some(u), p)
    ensures u.userRole == "admin" || (u.userRole == "moderator" && p.ownerRole == Some("user"))
    ensures Router.UpdatePost(db, token, p.postId, title, content, crypto) == Store.Reply(db, Common.Failure(Store.PostNotFound))
    ensures Router.DeletePost(db, token, p.postId, crypto) == Store.Reply(db, Common.Failure(Store.PostNotFound))
  {
  }

  /** For the owner the two sides agree: the controls are shown and both
      routes succeed. */
  lemma OwnerControlsHonoured(db: Store.Db, token: string, crypto: Store.Crypto, u: User, p: Post,
                              title: string, content: string)
    requires Dependencies.GetCurrentUser(db, token, crypto).Success?
    requires SameAccount(u, Dependencies.GetCurrentUser(db, token, crypto).value)
    requires p.postId in db.posts && SamePost(p, db.posts[p.postId])
    requires p.postOwner == u.userId
    ensures PostDetail.CanModify(Some(u), p)
    ensures Router.UpdatePost(db, token, p.postId, title, content, crypto).result.Success?
    ensures Router.DeletePost(db, token, p.postId, crypto).result.Success?
  {
  }
}

=== FILE: dependencies.dfy ===
/** `auth/dependencies.py`: `get_current_user`, the bearer-token check in
    front of every authenticated route. */
module Dependencies {
  import opened Common
  import opened Store

  /** A truthy `sub`: present and non-empty. */
  predicate HasSubject(c: Claims) {
    c.sub.Some? && c.sub.value != ""
  }

  /** `get_current_user`. The decode failure and the empty subject share one
      error; an unknown email is reported before the blacklist is consulted;
      the `type` claim is never looked at. */
  function GetCurrentUser(db: Db, token: string, crypto: Crypto): (r: Result<UserRow, HttpError>)
    ensures crypto.decode(token).None? ==> r == Failure(CredentialException)
    ensures crypto.decode(token).Some? && !HasSubject(crypto.decode(token).value) ==>
              r == Failure(CredentialException)
    ensures r.Success? <==>
              && crypto.decode(token).Some? && HasSubject(crypto.decode(token).value)
              && crypto.decode(token).value.sub.value in db.users
              && token !in db.blacklist
    ensures r.Success? ==> r.value == db.users[crypto.decode(token).value.sub.value]
    ensures r == Failure(InvalidUser) <==>
              && crypto.decode(token).Some? && HasSubject(crypto.decode(token).value)
              && crypto.decode(token).value.sub.value !in db.users
    ensures r == Failure(BlacklistedToken) <==>
              && crypto.decode(token).Some? && HasSubject(crypto.decode(token).value)
              && crypto.decode(token).value.sub.value in db.users
              && token in db.blacklist
  {
    match crypto.decode(token)
    case None => Failure(CredentialException)
    case Some(claims) =>
      if !HasSubject(claims) then Failure(CredentialException)
      else
        var email := claims.sub.value;
        if email !in db.users then Failure(InvalidUser)
        else if token in db.blacklist then Failure(BlacklistedToken)
        else Success(db.users[email])
  }

  /** The returned user is the one whose email is the token's subject. */
  lemma ReturnsSubject(db: Db, token: string, crypto: Crypto)
    requires WellKeyed(db)
    requires GetCurrentUser(db, token, crypto).Success?
    ensures Some(GetCurrentUser(db, token, crypto).value.email) == crypto.decode(token).value.sub
  {
  }

  /** A refresh token passes as an access token: nothing distinguishes the
      two once both decode to a known subject. */
  lemma RefreshTokenAcceptedAsAccess(db: Db, crypto: Crypto, email: string, expiry: int)
    requires email in db.users && email != ""
    requires DecodesTo(crypto, Claims(Some(email), Refresh, expiry))
    requires crypto.encode(Claims(Some(email), Refresh, expiry)) !in db.blacklist
    ensures GetCurrentUser(db, crypto.encode(Claims(Some(email), Refresh, expiry)), crypto) ==
            Success(db.users[email])
  {
  }

  /** Two tokens with the same subject are treated alike, whatever their
      type, as long as neither is blacklisted. */
  lemma TypeClaimIgnored(db: Db, crypto: Crypto, t1: string, t2: string)
    requires crypto.decode(t1).Some? && crypto.decode(t2).Some?
    requires crypto.decode(t1).value.sub == crypto.decode(t2).value.sub
    requires t1 !in db.blacklist && t2 !in db.blacklist
    ensures GetCurrentUser(db, t1, crypto) == GetCurrentUser(db, t2, crypto)
  {
  }

  /** For a revoked token of a user that no longer exists, the caller learns
      that the user is missing, not that the token is revoked. */
  lemma MissingUserReportedBeforeRevocation(db: Db, token: string, crypto: Crypto)
    requires token in db.blacklist
    requires crypto.decode(token).Some? && HasSubject(crypto.decode(token).value)
    requires crypto.decode(token).value.sub.value !in db.users
    ensures GetCurrentUser(db, token, crypto) == Failure(InvalidUser)
    ensures Status(InvalidUser) == 404
  {
  }
}

=== FILE: document_constraint.dfy ===
/** Revision 1dd0b1e19c5a: the `check_docs_file_path_extension` CHECK on
    `reading_documents.docs_file_path`, the UPDATE that follows it, and the
    `IF EXISTS` downgrade. */
module DocumentConstraint {
  import opened Common
  import opened Sql
  import Text

  const Extensions: seq<string> := [".pdf", ".docx"]

  /** `lower(right(docs_file_path, 4)) IN ('.pdf', '.docx')`; the column is
      NOT NULL, so the test is never unknown. */
  function PathCheck(path: string): (b: bool)
    ensures b <==> Lower(Right(path, 4)) in Extensions
  {
    CheckPasses(InList(Some(Lower(Right(path, 4))), Extensions))
  }

  /** Four characters never spell `.docx`: exactly the paths ending in
      `.pdf`, in any case, pass; a path shorter than four never does. */
  lemma PathCheckIffPdf(path: string)
    ensures PathCheck(path) <==> |path| >= 4 && Text.Lower(path[|path| - 4..]) == ".pdf"
  {
    var ext := Lower(Right(path, 4));
    assert |ext| <= 4 < |".docx"|;
    if |path| < 4 {
      assert |ext| < |".pdf"|;
    }
  }

  /** The test the constraint evidently means, each extension compared at
      its own length: `lower(right(p, 4)) = '.pdf' OR lower(right(p, 5)) =
      '.docx'`. */
  function IntendedPathCheck(path: string): (b: bool)
    ensures b <==> || (|path| >= 4 && Text.Lower(path[|path| - 4..]) == ".pdf")
                   || (|path| >= 5 && Text.Lower(path[|path| - 5..]) == ".docx")
  {
    var four, five := Lower(Right(path, 4)), Lower(Right(path, 5));
    assert |path| < 4 ==> |four| < |".pdf"|;
    assert |path| < 5 ==> |five| < |".docx"|;
    four == ".pdf" || five == ".docx"
  }

  /** The intended test keeps every path the written one admits and adds
      exactly the `.docx` paths, which the written one always refuses. */
  lemma IntendedAddsDocx(stem: string)
    ensures !PathCheck(stem + ".docx") && IntendedPathCheck(stem + ".docx")
    ensures forall p :: PathCheck(p) ==> IntendedPathCheck(p)
  {
    var p := stem + ".docx";
    PathCheckIffPdf(p);
    assert p[|p| - 5..] == ".docx";
    assert p[|p| - 4..] == "docx";
    assert Text.Lower(".docx")[1] == 'd';
    assert Text.Lower(".docx") == ".docx";
    assert Text.Lower("docx")[0] == 'd';
    forall q | PathCheck(q)
      ensures IntendedPathCheck(q)
    {
      PathCheckIffPdf(q);
    }
  }

  /** `UPDATE ... SET column = assign(column) WHERE cond(column)` over the
      column's rows. */
  function UpdateWhere(rows: seq<string>, cond: string -> bool, assign: string -> string): (r: seq<string>)
    ensures |r| == |rows|
    ensures forall i :: 0 <= i < |rows| ==> r[i] == (if cond(rows[i]) then assign(rows[i]) else rows[i])
  {
    if |rows| == 0 then []
    else [if cond(rows[0]) then assign(rows[0]) else rows[0]] + UpdateWhere(rows[1..], cond, assign)
  }

  /** An UPDATE whose assignment is the column itself changes no row,
      whatever its WHERE clause. */
  lemma SelfAssignmentIsNoOp(rows: seq<string>, cond: string -> bool)
    ensures UpdateWhere(rows, cond, p => p) == rows
  {
    var r := UpdateWhere(rows, cond, p => p);
    assert forall i :: 0 <= i < |rows| ==> r[i] == rows[i];
  }

  /** The file paths together with whether the constraint is installed. */
  datatype DocsTable = DocsTable(paths: seq<string>, constrained: bool)

  predicate AllPass(paths: seq<string>) {
    forall i :: 0 <= i < |paths| ==> PathCheck(paths[i])
  }

  /** Add the constraint (failing on a duplicate or on any violating row),
      then run the UPDATE. */
  function Upgrade(t: DocsTable): (r: Result<DocsTable, MigrationError>)
    ensures t.constrained ==> r == Failure(DuplicateObject)
    ensures r.Success? <==> !t.constrained && AllPass(t.paths)
    ensures !t.constrained && !AllPass(t.paths) ==> r == Failure(CheckViolation)
    ensures r.Success? ==> r.value == DocsTable(t.paths, true)
  {
    if t.constrained then Failure(DuplicateObject)
    else if !AllPass(t.paths) then Failure(CheckViolation)
    else
      SelfAssignmentIsNoOp(t.paths, PathCheck);
      Success(DocsTable(UpdateWhere(t.paths, PathCheck, p => p), true))
  }

  /** `DROP CONSTRAINT IF EXISTS`: never fails, and leaves the rows alone. */
  function Downgrade(t: DocsTable): (r: Result<DocsTable, MigrationError>)
    ensures r == Success(DocsTable(t.paths, false))
  {
    Success(t.(constrained := false))
  }

  /** Downgrading twice is as good as once. */
  lemma DowngradeIdempotent(t: DocsTable)
    ensures Downgrade(Downgrade(t).value) == Downgrade(t)
  {
  }

  /** A stored `.docx` path makes the upgrade fail. */
  lemma DocxPathBlocksUpgrade(stem: string, before: seq<string>, after: seq<string>)
    ensures Upgrade(DocsTable(before + [stem + ".docx"] + after, false)) == Failure(CheckViolation)
  {
    var paths := before + [stem + ".docx"] + after;
    var p := stem + ".docx";
    assert paths[|before|] == p;
    PathCheckIffPdf(p);
    assert p[|p| - 4..] == "docx";
    assert Text.Lower("docx")[0] == 'd';
  }
}

=== FILE: login_page.dfy ===
/** The two-phase submit of `pages/Login.tsx`: `/login` yields tokens, which
    are installed at once with a placeholder user; `/me` then yields the real
    profile, which replaces the placeholder. */
module LoginPage {
  import opened Common
  import opened Types
  import opened AuthContext

  const InvalidCredentialsMessage: string := "Invalid email or password !"

  /** The body of a successful `/login`. */
  datatype AuthResponse = AuthResponse(accessToken: string, refreshToken: string, tokenType: string)

  /** The form's state cells. */
  datatype Form = Form(email: string, password: string, error: string)

  /** The form together with the session provider it logs into. */
  datatype Screen = Screen(auth: Auth, form: Form)

  /** The user installed between the two calls: only the typed email is real. */
  function Placeholder(email: string): User {
    User("", "", email, None, "user")
  }

  /** The user built from the `/me` response: its four fields, nothing else. */
  function FromProfile(profile: User): User {
    User(profile.userId, profile.username, profile.email, None, profile.userRole)
  }

  /** `handleSubmit`. */
  function HandleSubmit(s: Screen, login: Outcome<AuthResponse>, profile: Outcome<User>,
                        stringify: User -> string): (r: Step<Screen>)
    ensures r.state.form.email == s.form.email && r.state.form.password == s.form.password
    ensures login.Failed? ==>
              r.state.auth == s.auth && r.calls == [LoginCall(s.form.email, s.form.password)]
    ensures login.Ok? ==> r.calls == [LoginCall(s.form.email, s.form.password), GetUserCall]
    ensures login.Ok? && profile.Failed? ==>
              r.state.auth == AuthContext.Login(s.auth, login.value.accessToken, login.value.refreshToken,
                                               Placeholder(s.form.email), stringify)
    ensures login.Ok? && profile.Ok? ==>
              && r.state.auth.user == Some(FromProfile(profile.value))
              && r.state.auth.accessToken == Some(login.value.accessToken)
              && r.state.auth.refreshToken == Some(login.value.refreshToken)
              && Mirrors(r.state.auth, stringify)
    ensures r.navigate == Some("/") <==> login.Ok? && profile.Ok?
    ensures r.navigate.None? ==> r.state.form.error == InvalidCredentialsMessage
    ensures r.navigate.Some? ==> r.state.form.error == ""
  {
    var cleared := s.form.(error := "");
    var first := LoginCall(s.form.email, s.form.password);
    match login
    case Failed(_) =>
      Step(Screen(s.auth, cleared.(error := InvalidCredentialsMessage)), [first], None)
    case Ok(data) =>
      var provisional := AuthContext.Login(s.auth, data.accessToken, data.refreshToken,
                                           Placeholder(s.form.email), stringify);
      match profile
      case Failed(_) =>
        Step(Screen(provisional, cleared.(error := InvalidCredentialsMessage)), [first, GetUserCall], None)
      case Ok(me) =>
        var full := AuthContext.Login(provisional, data.accessToken, data.refreshToken, FromProfile(me), stringify);
        Step(Screen(full, cleared), [first, GetUserCall], Some("/"))
  }

  /** A failed profile fetch leaves the placeholder logged in: the session
      holds the real tokens and a user with empty id and name, role `user`. */
  lemma ProfileFailureKeepsPlaceholder(s: Screen, data: AuthResponse, detail: Option<string>,
                                       stringify: User -> string)
    ensures var r := HandleSubmit(s, Ok(data), Failed(detail), stringify);
            && r.state.auth.user == Some(User("", "", s.form.email, None, "user"))
            && r.state.auth.accessToken == Some(data.accessToken)
            && !LoggedOut(r.state.auth)
            && r.navigate.None?
  {
  }

  /** After a full success the placeholder has left no trace: the session is
      what a single `login` with the profile would have produced. */
  lemma SuccessEqualsSingleLogin(s: Screen, data: AuthResponse, me: User, stringify: User -> string)
    ensures HandleSubmit(s, Ok(data), Ok(me), stringify).state.auth
            == AuthContext.Login(s.auth, data.accessToken, data.refreshToken, FromProfile(me), stringify)
  {
  }

  /** The message is the same whichever of the two calls failed. */
  lemma SameMessageForEitherFailure(s: Screen, data: AuthResponse, d1: Option<string>, d2: Option<string>,
                                    stringify: User -> string)
    ensures HandleSubmit(s, Failed(d1), Failed(d2), stringify).state.form.error
            == HandleSubmit(s, Ok(data), Failed(d2), stringify).state.form.error
            == InvalidCredentialsMessage
  {
  }
}

=== FILE: post_detail.dfy ===
/** `pages/PostDetail.tsx`: one post fetched by id, who may see its edit and
    delete controls, what the page shows, and the save and delete
    handlers. */
module PostDetail {
  import opened Common
  import opened Types

  const LoadFailedMessage: string := "Failed to load post."
  const UpdateFailedMessage: string := "Failed to update post."
  const DeleteFailedMessage: string := "Failed to delete post."

  /** The page's state cells. */
  datatype Detail = Detail(post: Option<Post>, error: string, isEditing: bool, editTitle: string, editContent: string)

  /** What the page renders. */
  datatype View = ErrorView(message: string) | NotFoundView | PostShown(post: Post, isEditing: bool, controls: bool)

  /** The edit/delete visibility rule: an admin, the post's owner, or a
      moderator looking at a post whose owner's role is `user`. */
  function CanModify(user: Option<User>, post: Post): (r: bool)
    ensures user.None? ==> !r
    ensures user.Some? && user.value.userRole == "admin" ==> r
    ensures user.Some? && post.postOwner == user.value.userId ==> r
    ensures user.Some? && post.postOwner != user.value.userId && user.value.userRole == "moderator" ==>
              (r <==> post.ownerRole == Some("user"))
    ensures (&& user.Some? && post.postOwner != user.value.userId
             && user.value.userRole != "admin" && user.value.userRole != "moderator") ==> !r
  {
    && user.Some?
    && (|| user.value.userRole == "admin"
        || post.postOwner == user.value.userId
        || (user.value.userRole == "moderator" && post.ownerRole == Some("user")))
  }

  /** Render precedence: an error wins, then a missing post, then the post
      (with controls when `CanModify`). */
  function Render(d: Detail, user: Option<User>): (v: View)
    ensures d.error != "" ==> v == ErrorView(d.error)
    ensures d.error == "" && d.post.None? ==> v == NotFoundView
    ensures v.PostShown? <==> d.error == "" && d.post.Some?
    ensures v.PostShown? ==> v.post == d.post.value && (v.controls <==> !d.isEditing && CanModify(user, d.post.value))
  {
    if d.error != "" then ErrorView(d.error)
    else if d.post.None? then NotFoundView
    else PostShown(d.post.value, d.isEditing, !d.isEditing && CanModify(user, d.post.value))
  }

  /** The effect that loads the post named in the route. */
  function FetchPost(d: Detail, id: string, fetched: Outcome<Post>): (r: Step<Detail>)
    ensures id == "" ==> r == Step(d, [], None)
    ensures id != "" ==> r.calls == [GetPostCall(id)] && r.navigate.None?
    ensures id != "" && fetched.Ok? ==> r.state == d.(post := Some(fetched.value))
    ensures id != "" && fetched.Failed? ==> r.state == d.(error := ErrorText(fetched.detail, LoadFailedMessage))
  {
    if id == "" then Step(d, [], None)
    else match fetched
      case Ok(p) => Step(d.(post := Some(p)), [GetPostCall(id)], None)
      case Failed(detail) => Step(d.(error := ErrorText(detail, LoadFailedMessage)), [GetPostCall(id)], None)
  }

  /** The Edit button: enter edit mode with the post's current text. */
  function BeginEdit(d: Detail): (r: Detail)
    requires d.post.Some?
    ensures r.isEditing && r.editTitle == d.post.value.postTitle && r.editContent == d.post.value.postContent
    ensures r.post == d.post && r.error == d.error
  {
    d.(isEditing := true, editTitle := d.post.value.postTitle, editContent := d.post.value.postContent)
  }

  /** `handleSave`: update, then re-read the post from the server. */
  function HandleSave(d: Detail, update: Outcome<()>, reread: Outcome<Post>): (r: Step<Detail>)
    ensures d.post.None? ==> r == Step(d, [], None)
    ensures d.post.Some? && update.Failed? ==>
              && r.calls == [UpdatePostCall(d.post.value.postId, d.editTitle, d.editContent)]
              && r.state == d.(error := ErrorText(update.detail, UpdateFailedMessage))
    ensures d.post.Some? && update.Ok? ==>
              r.calls == [UpdatePostCall(d.post.value.postId, d.editTitle, d.editContent),
                          GetPostCall(d.post.value.postId)]
    ensures d.post.Some? && update.Ok? && reread.Ok? ==>
              r.state == d.(post := Some(reread.value), isEditing := false)
    ensures d.post.Some? && update.Ok? && reread.Failed? ==>
              r.state == d.(error := ErrorText(reread.detail, UpdateFailedMessage))
    ensures r.navigate.None?
  {
    match d.post
    case None => Step(d, [], None)
    case Some(p) =>
      var put := UpdatePostCall(p.postId, d.editTitle, d.editContent);
      match update
      case Failed(detail) => Step(d.(error := ErrorText(detail, UpdateFailedMessage)), [put], None)
      case Ok(_) =>
        match reread
        case Failed(detail) =>
          Step(d.(error := ErrorText(detail, UpdateFailedMessage)), [put, GetPostCall(p.postId)], None)
        case Ok(updated) => Step(d.(post := Some(updated), isEditing := false), [put, GetPostCall(p.postId)], None)
  }

  /** `handleDelete`: on success leave for `/view-post`. */
  function HandleDelete(d: Detail, deleted: Outcome<()>): (r: Step<Detail>)
    ensures d.post.None? ==> r == Step(d, [], None)
    ensures d.post.Some? ==> r.calls == [DeletePostCall(d.post.value.postId)]
    ensures d.post.Some? && deleted.Ok? ==> r.state == d && r.navigate == Some("/view-post")
    ensures d.post.Some? && deleted.Failed? ==>
              r.state == d.(error := ErrorText(deleted.detail, DeleteFailedMessage)) && r.navigate.None?
  {
    match d.post
    case None => Step(d, [], None)
    case Some(p) =>
      match deleted
      case Ok(_) => Step(d, [DeletePostCall(p.postId)], Some("/view-post"))
      case Failed(detail) => Step(d.(error := ErrorText(detail, DeleteFailedMessage)), [DeletePostCall(p.postId)], None)
  }

  /** A plain user who does not own the post never gets controls, whatever
      the owner's role. */
  lemma PlainUserOnlyOwnPosts(u: User, post: Post)
    requires u.userRole == "user" && post.postOwner != u.userId
    ensures !CanModify(Some(u), post)
  {
  }

  /** A moderator's access to others' posts follows the owner's role; a post
      whose owner role is missing or `moderator`/`admin` is out of reach. */
  lemma ModeratorNeedsUserOwner(u: User, post: Post)
    requires u.userRole == "moderator" && post.postOwner != u.userId && post.ownerRole != Some("user")
    ensures !CanModify(Some(u), post)
  {
  }

  /** Once an error is set no handler clears it, so the error view stays. */
  lemma ErrorIsSticky(d: Detail, user: Option<User>, update: Outcome<()>, reread: Outcome<Post>,
                      deleted: Outcome<()>, id: string, fetched: Outcome<Post>)
    requires d.error != ""
    ensures Render(HandleSave(d, update, reread).state, user).ErrorView?
    ensures Render(HandleDelete(d, deleted).state, user).ErrorView?
    ensures Render(FetchPost(d, id, fetched).state, user).ErrorView?
  {
  }

  /** Saving straight after opening the editor sends the post's current
      title and content back unchanged, and a successful re-read leaves
      edit mode. */
  lemma SaveWithoutChangesResends(d: Detail, reread: Outcome<Post>)
    requires d.post.Some?
    ensures var p := d.post.value;
            HandleSave(BeginEdit(d), Ok(()), reread).calls ==
              [UpdatePostCall(p.postId, p.postTitle, p.postContent), GetPostCall(p.postId)]
    ensures reread.Ok? ==> !HandleSave(BeginEdit(d), Ok(()), reread).state.isEditing
  {
  }
}

=== FILE: post_page.dfy ===
/** `pages/Post.tsx`: create a post, fetch one by id, edit it and delete it,
    as four handlers over one record of form and post state. */
module PostPage {
  import opened Common
  import opened Types

  const CreateFailedMessage: string := "Failed to create post"
  const MissingIdMessage: string := "Post ID not found !"
  const ViewFailedMessage: string := "Failed to view post !"
  const UpdateFailedMessage: string := "Failed to update post"
  const DeleteFailedMessage: string := "Failed to delete post"

  /** The page's state cells. */
  datatype Page = Page(title: string, content: string, postId: string, post: Option<Post>,
                       isEditing: bool, editTitle: string, editContent: string, error: string)

  /** `handleCreateSubmit`. */
  function HandleCreate(s: Page, user: Option<User>, created: Outcome<Post>): (r: Step<Page>)
    ensures user.None? ==> r == Step(s, [], None)
    ensures user.Some? ==> r.calls == [CreatePostCall(s.title, s.content)] && r.navigate.None?
    ensures user.Some? && created.Ok? ==>
              r.state == s.(post := Some(created.value), postId := created.value.postId,
                            title := "", content := "", error := "")
    ensures user.Some? && created.Failed? ==>
              r.state == s.(error := ErrorText(created.detail, CreateFailedMessage))
  {
    if user.None? then Step(s, [], None)
    else
      var call := CreatePostCall(s.title, s.content);
      var cleared := s.(error := "");
      match created
      case Ok(p) => Step(cleared.(post := Some(p), postId := p.postId, title := "", content := ""), [call], None)
      case Failed(detail) => Step(cleared.(error := ErrorText(detail, CreateFailedMessage)), [call], None)
  }

  /** `handleFetch`. */
  function HandleFetch(s: Page, fetched: Outcome<Post>): (r: Step<Page>)
    ensures s.postId == "" ==> r == Step(s.(error := MissingIdMessage), [], None)
    ensures s.postId != "" ==> r.calls == [GetPostCall(s.postId)] && r.navigate.None?
    ensures s.postId != "" && fetched.Ok? ==>
              r.state == s.(post := Some(fetched.value), isEditing := false, error := "")
    ensures s.postId != "" && fetched.Failed? ==>
              r.state == s.(error := ErrorText(fetched.detail, ViewFailedMessage))
  {
    if s.postId == "" then Step(s.(error := MissingIdMessage), [], None)
    else
      var call := GetPostCall(s.postId);
      match fetched
      case Ok(p) => Step(s.(post := Some(p), isEditing := false, error := ""), [call], None)
      case Failed(detail) => Step(s.(error := ErrorText(detail, ViewFailedMessage)), [call], None)
  }

  /** `handleEditPost`: on success the shown post keeps everything but its
      title and content, which become the edited ones. */
  function HandleEdit(s: Page, user: Option<User>, update: Outcome<()>): (r: Step<Page>)
    ensures user.None? || s.post.None? ==> r == Step(s, [], None)
    ensures user.Some? && s.post.Some? ==>
              r.calls == [UpdatePostCall(s.post.value.postId, s.editTitle, s.editContent)] && r.navigate.None?
    ensures user.Some? && s.post.Some? && update.Ok? ==>
              r.state == s.(post := Some(s.post.value.(postTitle := s.editTitle, postContent := s.editContent)),
                            isEditing := false, error := "")
    ensures user.Some? && s.post.Some? && update.Failed? ==>
              r.state == s.(error := ErrorText(update.detail, UpdateFailedMessage))
  {
    if user.None? || s.post.None? then Step(s, [], None)
    else
      var p := s.post.value;
      var call := UpdatePostCall(p.postId, s.editTitle, s.editContent);
      match update
      case Ok(_) =>
        Step(s.(post := Some(p.(postTitle := s.editTitle, postContent := s.editContent)), isEditing := false, error := ""),
             [call], None)
      case Failed(detail) => Step(s.(error := ErrorText(detail, UpdateFailedMessage)), [call], None)
  }

  /** `handleDeletePost`: on success the post and the id field are cleared. */
  function HandleDelete(s: Page, user: Option<User>, deleted: Outcome<()>): (r: Step<Page>)
    ensures user.None? || s.post.None? ==> r == Step(s, [], None)
    ensures user.Some? && s.post.Some? ==> r.calls == [DeletePostCall(s.post.value.postId)] && r.navigate.None?
    ensures user.Some? && s.post.Some? && deleted.Ok? ==>
              r.state == s.(post := None, postId := "", error := "")
    ensures user.Some? && s.post.Some? && deleted.Failed? ==>
              r.state == s.(error := ErrorText(deleted.detail, DeleteFailedMessage))
  {
    if user.None? || s.post.None? then Step(s, [], None)
    else
      var call := DeletePostCall(s.post.value.postId);
      match deleted
      case Ok(_) => Step(s.(post := None, postId := "", error := ""), [call], None)
      case Failed(detail) => Step(s.(error := ErrorText(detail, DeleteFailedMessage)), [call], None)
  }

  /** A created post can be fetched back at once: the id field now names it,
      so `handleFetch` calls `/view-post` with the server-assigned id. */
  lemma CreateThenFetchUsesNewId(s: Page, u: User, p: Post, again: Outcome<Post>)
    requires p.postId != ""
    ensures var created := HandleCreate(s, Some(u), Ok(p)).state;
            HandleFetch(created, again).calls == [GetPostCall(p.postId)]
  {
  }

  /** After a delete nothing is left to edit or delete: both become no-ops. */
  lemma DeleteDisablesEditAndDelete(s: Page, u: User, user: Option<User>, update: Outcome<()>, deleted: Outcome<()>)
    requires s.post.Some?
    ensures var gone := HandleDelete(s, Some(u), Ok(())).state;
            && HandleEdit(gone, user, update) == Step(gone, [], None)
            && HandleDelete(gone, user, deleted) == Step(gone, [], None)
            && HandleFetch(gone, Ok(s.post.value)).calls == []
  {
  }
}

=== FILE: post_view.dfy ===
/** `pages/PostView.tsx`: the signed-in user's post list, edited in place by
    id and filtered on delete, each only after the server call succeeds. */
module PostView {
  import opened Common
  import opened Types

  const FetchFailedMessage: string := "Failed to fetch posts"
  const UpdateFailedMessage: string := "Failed to update post"
  const DeleteFailedMessage: string := "Failed to delete post"

  /** The page's state cells; `editing` is the id of the post being edited. */
  datatype Listing = Listing(posts: seq<Post>, error: string, editing: Option<string>,
                             editTitle: string, editContent: string)

  datatype View = ErrorView(message: string) | ListView(posts: seq<Post>, editing: Option<string>)

  /** The `map` of `handleEditPost`: posts with the id get the new title and
      content, every other field and every other post is kept. */
  function ReplaceById(posts: seq<Post>, id: string, title: string, content: string): (r: seq<Post>)
    ensures |r| == |posts|
    ensures forall i :: 0 <= i < |posts| && posts[i].postId == id ==>
              r[i] == posts[i].(postTitle := title, postContent := content)
    ensures forall i :: 0 <= i < |posts| && posts[i].postId != id ==> r[i] == posts[i]
  {
    if |posts| == 0 then []
    else
      var head := if posts[0].postId == id then posts[0].(postTitle := title, postContent := content) else posts[0];
      [head] + ReplaceById(posts[1..], id, title, content)
  }

  /** The `filter` of `handleDeletePost`: every post with the id goes. */
  function RemoveById(posts: seq<Post>, id: string): (r: seq<Post>)
    ensures |r| <= |posts|
    ensures forall p :: p in r <==> p in posts && p.postId != id
  {
    if |posts| == 0 then []
    else if posts[0].postId == id then RemoveById(posts[1..], id)
    else [posts[0]] + RemoveById(posts[1..], id)
  }

  /** Removal works piecewise, so the kept posts stay in their order. */
  lemma {:induction false} RemoveDistributes(a: seq<Post>, b: seq<Post>, id: string)
    ensures RemoveById(a + b, id) == RemoveById(a, id) + RemoveById(b, id)
  {
    if |a| == 0 {
      assert a + b == b;
    } else {
      assert (a + b)[1..] == a[1..] + b;
      RemoveDistributes(a[1..], b, id);
    }
  }

  /** A list without the id is left as it is; hence removal is idempotent. */
  lemma {:induction false} RemoveAbsentIsIdentity(posts: seq<Post>, id: string)
    requires forall i :: 0 <= i < |posts| ==> posts[i].postId != id
    ensures RemoveById(posts, id) == posts
  {
    if |posts| > 0 {
      RemoveAbsentIsIdentity(posts[1..], id);
    }
  }

  lemma RemoveIdempotent(posts: seq<Post>, id: string)
    ensures RemoveById(RemoveById(posts, id), id) == RemoveById(posts, id)
  {
    var r := RemoveById(posts, id);
    forall i | 0 <= i < |r|
      ensures r[i].postId != id
    {
      assert r[i] in r;
    }
    RemoveAbsentIsIdentity(r, id);
  }

  /** Editing keeps the ids, in order, so the list still lines up with the server's. */
  lemma ReplaceKeepsIds(posts: seq<Post>, id: string, title: string, content: string)
    ensures var r := ReplaceById(posts, id, title, content);
            forall i :: 0 <= i < |posts| ==> r[i].postId == posts[i].postId
  {
  }

  /** `handleEditPost`. */
  function HandleEditPost(s: Listing, postId: string, update: Outcome<()>): (r: Step<Listing>)
    ensures r.calls == [UpdatePostCall(postId, s.editTitle, s.editContent)] && r.navigate.None?
    ensures update.Ok? ==>
              r.state == s.(posts := ReplaceById(s.posts, postId, s.editTitle, s.editContent), editing := None)
    ensures update.Failed? ==> r.state == s.(error := ErrorText(update.detail, UpdateFailedMessage))
  {
    var call := UpdatePostCall(postId, s.editTitle, s.editContent);
    match update
    case Ok(_) => Step(s.(posts := ReplaceById(s.posts, postId, s.editTitle, s.editContent), editing := None), [call], None)
    case Failed(detail) => Step(s.(error := ErrorText(detail, UpdateFailedMessage)), [call], None)
  }

  /** `handleDeletePost`. */
  function HandleDeletePost(s: Listing, postId: string, deleted: Outcome<()>): (r: Step<Listing>)
    ensures r.calls == [DeletePostCall(postId)] && r.navigate.None?
    ensures deleted.Ok? ==> r.state == s.(posts := RemoveById(s.posts, postId))
    ensures deleted.Failed? ==> r.state == s.(error := ErrorText(deleted.detail, DeleteFailedMessage))
  {
    match deleted
    case Ok(_) => Step(s.(posts := RemoveById(s.posts, postId)), [DeletePostCall(postId)], None)
    case Failed(detail) => Step(s.(error := ErrorText(detail, DeleteFailedMessage)), [DeletePostCall(postId)], None)
  }

  /** The effect that loads the list. */
  function FetchPosts(s: Listing, fetched: Outcome<seq<Post>>): (r: Step<Listing>)
    ensures r.calls == [GetMyPostsCall] && r.navigate.None?
    ensures fetched.Ok? ==> r.state == s.(posts := fetched.value)
    ensures fetched.Failed? ==> r.state == s.(error := ErrorText(fetched.detail, FetchFailedMessage))
  {
    match fetched
    case Ok(ps) => Step(s.(posts := ps), [GetMyPostsCall], None)
    case Failed(detail) => Step(s.(error := ErrorText(detail, FetchFailedMessage)), [GetMyPostsCall], None)
  }

  /** A non-empty error replaces the whole list. */
  function Render(s: Listing): (v: View)
    ensures v.ErrorView? <==> s.error != ""
    ensures v.ListView? ==> v.posts == s.posts
  {
    if s.error != "" then ErrorView(s.error) else ListView(s.posts, s.editing)
  }

  /** A successful load is what the page shows, unless an earlier error is
      still set: the fetch never clears it. */
  lemma FetchedListShown(s: Listing, ps: seq<Post>)
    ensures s.error == "" ==> Render(FetchPosts(s, Ok(ps)).state) == ListView(ps, s.editing)
    ensures s.error != "" ==> Render(FetchPosts(s, Ok(ps)).state) == ErrorView(s.error)
  {
  }
}

=== FILE: role_check.dfy ===
/** `utils/auth.ts`: `hasRole`, a membership test of the signed-in user's
    role in a list of required roles. */
module RoleCheck {
  import opened Common
  import opened Types

  /** `user?.user_role ? requiredRoles.includes(user.user_role) : false`. */
  function HasRole(user: Option<User>, requiredRoles: seq<string>): (r: bool)
    ensures r <==> user.Some? && user.value.userRole != "" && user.value.userRole in requiredRoles
  {
    if user.Some? && user.value.userRole != "" then Includes(requiredRoles, user.value.userRole) else false
  }

  /** No user, an empty role, or an empty list: always false. */
  lemma HasRoleFalseCases(user: Option<User>, requiredRoles: seq<string>)
    ensures user.None? ==> !HasRole(user, requiredRoles)
    ensures user.Some? && user.value.userRole == "" ==> !HasRole(user, requiredRoles)
    ensures requiredRoles == [] ==> !HasRole(user, requiredRoles)
  {
  }

  /** Requiring more roles never withdraws access. */
  lemma HasRoleMonotone(user: Option<User>, fewer: seq<string>, more: seq<string>)
    requires forall x :: x in fewer ==> x in more
    ensures HasRole(user, fewer) ==> HasRole(user, more)
  {
  }

  /** The order and repetition of the required roles do not matter. */
  lemma HasRoleDependsOnlyOnMembers(user: Option<User>, a: seq<string>, b: seq<string>)
    requires forall x :: x in a <==> x in b
    ensures HasRole(user, a) == HasRole(user, b)
  {
  }
}

=== FILE: role_constraint.dfy ===
/** Revision 739a922e97ec: the `valid_user_role` CHECK constraint on
    `users.user_role`, added on upgrade and dropped (without `IF EXISTS`)
    on downgrade. */
module RoleConstraint {
  import opened Common
  import opened Sql
  import RoleRename

  const AllowedRoles: seq<string> := ["user", "moderator", "admin"]

  /** `user_role IN ('user', 'moderator', 'admin')` as a CHECK: a NULL role
      makes the test unknown, which the constraint accepts. */
  function ValidUserRole(role: Option<string>): (b: bool)
    ensures role.None? ==> b
    ensures role.Some? ==> (b <==> role.value == "user" || role.value == "moderator" || role.value == "admin")
  {
    CheckPasses(InList(role, AllowedRoles))
  }

  /** Every row of the column satisfies the constraint. */
  predicate AllValid(roles: seq<Option<string>>) {
    forall i :: 0 <= i < |roles| ==> ValidUserRole(roles[i])
  }

  /** The role column together with whether the constraint is installed. */
  datatype UsersTable = UsersTable(column: RoleRename.RoleColumn, constrained: bool)

  /** `ALTER TABLE users ADD CONSTRAINT valid_user_role CHECK (...)`. */
  function Upgrade(t: UsersTable): (r: Result<UsersTable, MigrationError>)
    ensures t.constrained ==> r == Failure(DuplicateObject)
    ensures !t.constrained && !AllValid(t.column.roles) ==> r == Failure(CheckViolation)
    ensures r.Success? <==> !t.constrained && AllValid(t.column.roles)
    ensures r.Success? ==> r.value == t.(constrained := true)
  {
    if t.constrained then Failure(DuplicateObject)
    else if !AllValid(t.column.roles) then Failure(CheckViolation)
    else Success(t.(constrained := true))
  }

  /** `ALTER TABLE users DROP CONSTRAINT valid_user_role`: there is no
      `IF EXISTS`, so dropping an absent constraint fails. */
  function Downgrade(t: UsersTable): (r: Result<UsersTable, MigrationError>)
    ensures r.Success? <==> t.constrained
    ensures r.Failure? ==> r.error == UndefinedObject
    ensures r.Success? ==> r.value == t.(constrained := false)
  {
    if t.constrained then Success(t.(constrained := false)) else Failure(UndefinedObject)
  }

  /** `trader`, the role the ORM model still defaults to, is rejected; the
      migrated server default `user` is accepted. */
  lemma DefaultsAgainstConstraint()
    ensures !ValidUserRole(Some(RoleRename.Trader))
    ensures ValidUserRole(Some(RoleRename.UserRole))
  {
  }

  /** The roles that existed before the rename. */
  predicate LegacyRoles(roles: seq<Option<string>>) {
    forall i :: 0 <= i < |roles| ==>
      roles[i].None? || roles[i].value in ["trader", "user", "moderator", "admin"]
  }

  /** Applied after its parent revision (the rename), the constraint can be
      added to any table holding only legacy roles. */
  lemma RenameThenConstrainSucceeds(c: RoleRename.RoleColumn)
    requires LegacyRoles(c.roles)
    ensures Upgrade(UsersTable(RoleRename.Upgrade(c), false)).Success?
  {
    RoleRename.UpgradeEffect(c);
    var roles := RoleRename.Upgrade(c).roles;
    forall i | 0 <= i < |roles|
      ensures ValidUserRole(roles[i])
    {
      if c.roles[i] == Some(RoleRename.Trader) {
        assert roles[i] == Some("user");
      } else {
        assert roles[i] == c.roles[i];
      }
    }
  }

  /** Without the rename, a single `trader` row blocks the constraint. */
  lemma TraderRowBlocksConstraint(c: RoleRename.RoleColumn, i: nat)
    requires i < |c.roles| && c.roles[i] == Some(RoleRename.Trader)
    ensures Upgrade(UsersTable(c, false)) == Failure(CheckViolation)
  {
    assert !ValidUserRole(c.roles[i]);
  }

  /** Downgrade undoes a successful upgrade. */
  lemma DowngradeUndoesUpgrade(t: UsersTable)
    requires Upgrade(t).Success?
    ensures Downgrade(Upgrade(t).value) == Success(t)
  {
  }
}

=== FILE: role_rename.dfy ===
/** Revision fc0600dcc981: the `trader` role is renamed `user`. The upgrade
    also makes `user` the column's server default; the downgrade reverses
    both. */
module RoleRename {
  import opened Common

  const Trader: string := "trader"
  const UserRole: string := "user"

  /** The `user_role` column of `users`: its server default and each row's
      (nullable) role, in row order. */
  datatype RoleColumn = RoleColumn(serverDefault: Option<string>, roles: seq<Option<string>>)

  /** `UPDATE users SET user_role = to WHERE user_role = from`; a NULL role
      never equals `from`, so it is kept. */
  function Rename(roles: seq<Option<string>>, from: string, to: string): (r: seq<Option<string>>)
    ensures |r| == |roles|
    ensures forall i :: 0 <= i < |roles| && roles[i] == Some(from) ==> r[i] == Some(to)
    ensures forall i :: 0 <= i < |roles| && roles[i] != Some(from) ==> r[i] == roles[i]
  {
    if |roles| == 0 then []
    else [if roles[0] == Some(from) then Some(to) else roles[0]] + Rename(roles[1..], from, to)
  }

  /** `upgrade`: default `user`, then every `trader` row renamed. */
  function Upgrade(c: RoleColumn): (r: RoleColumn)
    ensures r.serverDefault == Some(UserRole) && |r.roles| == |c.roles|
    ensures forall i :: 0 <= i < |r.roles| ==> r.roles[i] != Some(Trader)
  {
    RoleColumn(Some(UserRole), Rename(c.roles, Trader, UserRole))
  }

  /** `downgrade`: default `trader`, then every `user` row renamed. */
  function Downgrade(c: RoleColumn): (r: RoleColumn)
    ensures r.serverDefault == Some(Trader) && |r.roles| == |c.roles|
    ensures forall i :: 0 <= i < |r.roles| ==> r.roles[i] != Some(UserRole)
  {
    RoleColumn(Some(Trader), Rename(c.roles, UserRole, Trader))
  }

  /** After the upgrade no row is `trader`, `trader` rows became `user`, the
      rest are untouched, and the default is `user`. */
  lemma UpgradeEffect(c: RoleColumn)
    ensures var u := Upgrade(c);
            && u.serverDefault == Some(UserRole)
            && |u.roles| == |c.roles|
            && (forall i :: 0 <= i < |u.roles| ==> u.roles[i] != Some(Trader))
            && (forall i :: 0 <= i < |c.roles| && c.roles[i] == Some(Trader) ==> u.roles[i] == Some(UserRole))
            && (forall i :: 0 <= i < |c.roles| && c.roles[i] != Some(Trader) ==> u.roles[i] == c.roles[i])
  {
  }

  /** Running the upgrade twice changes nothing more. */
  lemma UpgradeIdempotent(c: RoleColumn)
    ensures Upgrade(Upgrade(c)) == Upgrade(c)
  {
    var once := Upgrade(c).roles;
    var twice := Upgrade(Upgrade(c)).roles;
    assert |twice| == |once|;
    forall i | 0 <= i < |once|
      ensures twice[i] == once[i]
    {
    }
  }

  /** The downgrade turns every `user` into `trader`, keeps the rest, and
      restores the `trader` default. */
  lemma DowngradeEffect(c: RoleColumn)
    ensures var d := Downgrade(c);
            && d.serverDefault == Some(Trader)
            && |d.roles| == |c.roles|
            && (forall i :: 0 <= i < |c.roles| && c.roles[i] == Some(UserRole) ==> d.roles[i] == Some(Trader))
            && (forall i :: 0 <= i < |c.roles| && c.roles[i] != Some(UserRole) ==> d.roles[i] == c.roles[i])
  {
  }

  /** Upgrade then downgrade sends both former `trader` and former `user`
      rows to `trader`. */
  lemma RoundTripMergesRoles(c: RoleColumn)
    ensures var back := Downgrade(Upgrade(c)).roles;
            && |back| == |c.roles|
            && (forall i :: 0 <= i < |c.roles| && (c.roles[i] == Some(Trader) || c.roles[i] == Some(UserRole)) ==>
                  back[i] == Some(Trader))
            && (forall i :: 0 <= i < |c.roles| && c.roles[i] != Some(Trader) && c.roles[i] != Some(UserRole) ==>
                  back[i] == c.roles[i])
  {
  }

  /** So the round trip is not the identity once a `user` row existed. */
  lemma RoundTripLosesUserRows()
    ensures var c := RoleColumn(Some(UserRole), [Some(UserRole)]);
            Downgrade(Upgrade(c)) != c
  {
    var c := RoleColumn(Some(UserRole), [Some(UserRole)]);
    RoundTripMergesRoles(c);
    assert Downgrade(Upgrade(c)).roles[0] == Some(Trader);
  }
}

=== FILE: route_guard.dfy ===
/** `components/ProtectedRoute.tsx`: render the wrapped page when a user is
    present, otherwise redirect to `/login`. It takes no role parameter and
    never looks at the tokens. */
module RouteGuard {
  import opened Common
  import opened Types
  import AuthContext

  datatype Decision = RenderChildren | RedirectTo(path: string)

  /** The guard's decision for the provider's current state. */
  function Decide(a: AuthContext.Auth): (d: Decision)
    ensures d == RenderChildren <==> a.user.Some?
    ensures d != RenderChildren ==> d == RedirectTo("/login")
  {
    if a.user.Some? then RenderChildren else RedirectTo("/login")
  }

  /** Tokens and error play no part: any two states with the same user get
      the same decision. */
  lemma DecisionDependsOnlyOnUser(a: AuthContext.Auth, b: AuthContext.Auth)
    requires a.user == b.user
    ensures Decide(a) == Decide(b)
  {
  }

  /** Every role is let through, the empty one included. */
  lemma EveryRoleRenders(a: AuthContext.Auth, role: string)
    requires a.user.Some?
    ensures Decide(a.(user := Some(a.user.value.(userRole := role)))) == RenderChildren
  {
  }

  /** After `logout` the guard redirects; after `login` it renders. */
  lemma GuardFollowsSession(a: AuthContext.Auth, server: AuthContext.FetchOutcome, accessToken: string,
                            refreshToken: string, user: User, stringify: User -> string)
    ensures Decide(AuthContext.Logout(a, server).state) == RedirectTo("/login")
    ensures Decide(AuthContext.Login(a, accessToken, refreshToken, user, stringify)) == RenderChildren
  {
  }

  /** A session whose access token is gone but whose user remains still
      renders: no token presence or expiry is checked. */
  lemma UserWithoutTokensRenders(a: AuthContext.Auth)
    requires a.user.Some?
    ensures Decide(a.(accessToken := None, refreshToken := None)) == RenderChildren
  {
  }
}

=== FILE: router.dfy ===
/** `auth/router.py`: register, login, logout, `/me`, and the post routes,
    each a transition of the abstract store. Database writes that the code
    commits are applied in full or (on an error before the commit) not at
    all. */
module Router {
  import opened Common
  import opened Store
  import opened Dependencies
  import RoleConstraint

  const ModelDefaultRole: string := "trader"
  const MigratedDefaultRole: string := "user"
  const BearerType: string := "bearer"
  const LogoutMessage: string := "Logout Successfully"
  const UpdatedMessage: string := "Post updated successfully !"
  const DeletedMessage: string := "Post deleted successfully !"

  /** The `UserResponse` schema: id, username, email. */
  datatype UserResponse = UserResponse(userId: string, username: string, email: string)

  /** The body `login` returns. */
  datatype Tokens = Tokens(accessToken: string, refreshToken: string, tokenType: string)

  function Public(u: UserRow): (r: UserResponse)
    ensures r.userId == u.userId && r.username == u.username && r.email == u.email
  {
    UserResponse(u.userId, u.username, u.email)
  }

  /** The user with the given id, if any. */
  predicate IdTaken(db: Db, id: string) {
    exists e :: e in db.users && db.users[e].userId == id
  }

  /** `register` with the role the ORM puts into the INSERT. `constrained`
      says whether `valid_user_role` is installed; a row it rejects makes the
      commit fail, which the route does not catch. A fresh id (`uuid4`)
      that collides with an existing one fails the same way. */
  function RegisterWithRole(db: Db, username: string, email: string, password: string, newId: string,
                            crypto: Crypto, role: string, constrained: bool): (r: Reply<UserResponse>)
    ensures email in db.users ==> r == Reply(db, Failure(UserExistedCheck))
    ensures email !in db.users && (IdTaken(db, newId) || (constrained && !RoleConstraint.ValidUserRole(Some(role)))) ==>
              r == Reply(db, Failure(InternalServerError))
    ensures r.result.Success? <==>
              email !in db.users && !IdTaken(db, newId) && !(constrained && !RoleConstraint.ValidUserRole(Some(role)))
    ensures r.result.Success? ==>
              && r.db == db.(users := db.users[email := UserRow(newId, username, email, crypto.hash(password), Some(role))])
              && r.result.value == UserResponse(newId, username, email)
  {
    if email in db.users then Reply(db, Failure(UserExistedCheck))
    else if IdTaken(db, newId) || (constrained && !RoleConstraint.ValidUserRole(Some(role))) then
      Reply(db, Failure(InternalServerError))
    else
      var row := UserRow(newId, username, email, crypto.hash(password), Some(role));
      Reply(db.(users := db.users[email := row]), Success(Public(row)))
  }

  /** `register` as written: the model's default role `trader` is inserted. */
  function RegisterAsWritten(db: Db, username: string, email: string, password: string, newId: string,
                             crypto: Crypto, constrained: bool): (r: Reply<UserResponse>)
    ensures constrained ==> r.result.Failure?
    ensures !constrained && r.result.Success? ==> email in r.db.users && r.db.users[email].userRole == Some(ModelDefaultRole)
  {
    RoleConstraint.DefaultsAgainstConstraint();
    RegisterWithRole(db, username, email, password, newId, crypto, ModelDefaultRole, constrained)
  }

  /** `register` with the migrated default `user`, which the constraint
      accepts. */
  function Register(db: Db, username: string, email: string, password: string, newId: string,
                    crypto: Crypto, constrained: bool): (r: Reply<UserResponse>)
    ensures r.result.Success? <==> email !in db.users && !IdTaken(db, newId)
    ensures r.result.Success? ==> email in r.db.users && r.db.users[email].userRole == Some(MigratedDefaultRole)
  {
    RoleConstraint.DefaultsAgainstConstraint();
    RegisterWithRole(db, username, email, password, newId, crypto, MigratedDefaultRole, constrained)
  }

  /** Under the constraint, registering as written fails for every new
      email, while the corrected route succeeds. */
  lemma RegisterAsWrittenAlwaysFails(db: Db, username: string, email: string, password: string, newId: string,
                                     crypto: Crypto)
    requires email !in db.users && !IdTaken(db, newId)
    ensures RegisterAsWritten(db, username, email, password, newId, crypto, true) == Reply(db, Failure(InternalServerError))
    ensures Register(db, username, email, password, newId, crypto, true).result.Success?
  {
    RoleConstraint.DefaultsAgainstConstraint();
  }

  /** Without the constraint the as-written route stores a role the
      constraint would reject. */
  lemma RegisterAsWrittenStoresInvalidRole(db: Db, username: string, email: string, password: string,
                                           newId: string, crypto: Crypto)
    requires email !in db.users && !IdTaken(db, newId)
    ensures var r := RegisterAsWritten(db, username, email, password, newId, crypto, false);
            r.result.Success? && !RoleConstraint.ValidUserRole(r.db.users[email].userRole)
  {
    RoleConstraint.DefaultsAgainstConstraint();
  }

  /** Some stored refresh record carries this token. */
  predicate RefreshStored(db: Db, token: string) {
    exists i :: 0 <= i < |db.refreshTokens| && db.refreshTokens[i].refreshToken == token
  }

  /** No two refresh records carry the same token, as the unique column
      demands. */
  ghost predicate RefreshTokensUnique(db: Db) {
    forall i, j :: 0 <= i < j < |db.refreshTokens| ==> db.refreshTokens[i].refreshToken != db.refreshTokens[j].refreshToken
  }

  /** The login result and the refresh record it stores. `refresh_token` is
      a unique column, and the same claims encode to the same token (the
      expiry has whole-second resolution), so a second login within the
      same second fails its INSERT and surfaces as a 500. */
  function IssueTokens(db: Db, user: UserRow, crypto: Crypto, accessExpiry: int, refreshExpiry: int)
    : (r: Reply<Tokens>)
    ensures r.result.Success? <==> !RefreshStored(db, crypto.encode(Claims(Some(user.email), Refresh, refreshExpiry)))
    ensures r.result.Failure? ==> r == Reply(db, Failure(InternalServerError))
    ensures r.result.Success? ==>
              && r.result.value.tokenType == BearerType
              && r.result.value.accessToken == crypto.encode(Claims(Some(user.email), Access, accessExpiry))
              && r.result.value.refreshToken == crypto.encode(Claims(Some(user.email), Refresh, refreshExpiry))
              && r.db == db.(refreshTokens := db.refreshTokens + [RefreshRow(r.result.value.refreshToken, user.userId, false)])
  {
    var access := crypto.encode(Claims(Some(user.email), Access, accessExpiry));
    var refresh := crypto.encode(Claims(Some(user.email), Refresh, refreshExpiry));
    if RefreshStored(db, refresh) then Reply(db, Failure(InternalServerError))
    else
      Reply(db.(refreshTokens := db.refreshTokens + [RefreshRow(refresh, user.userId, false)]),
            Success(Tokens(access, refresh, BearerType)))
  }

  /** `login` as written: the password is verified against
      `user.hashed_password` before `user` is checked, so an unknown email
      dereferences None and surfaces as a 500; `InvalidUser` is unreachable. */
  function LoginAsWritten(db: Db, email: string, password: string, crypto: Crypto,
                          accessExpiry: int, refreshExpiry: int): (r: Reply<Tokens>)
    ensures email !in db.users ==> r == Reply(db, Failure(InternalServerError))
    ensures r.result != Failure(InvalidUser)
    ensures email in db.users && !crypto.verify(password, db.users[email].hashedPassword) ==>
              r == Reply(db, Failure(InvalidPassword))
    ensures r.result.Success? <==>
              && email in db.users && crypto.verify(password, db.users[email].hashedPassword)
              && !RefreshStored(db, crypto.encode(Claims(Some(db.users[email].email), Refresh, refreshExpiry)))
  {
    if email !in db.users then Reply(db, Failure(InternalServerError))
    else
      var user := db.users[email];
      if !crypto.verify(password, user.hashedPassword) then Reply(db, Failure(InvalidPassword))
      else IssueTokens(db, user, crypto, accessExpiry, refreshExpiry)
  }

  /** `login` with the missing-user check first: an unknown email is a 404. */
  function Login(db: Db, email: string, password: string, crypto: Crypto,
                 accessExpiry: int, refreshExpiry: int): (r: Reply<Tokens>)
    ensures email !in db.users ==> r == Reply(db, Failure(InvalidUser))
    ensures email in db.users && !crypto.verify(password, db.users[email].hashedPassword) ==>
              r == Reply(db, Failure(InvalidPassword))
    ensures email in db.users && crypto.verify(password, db.users[email].hashedPassword) ==>
              (r.result.Success? <==>
                 !RefreshStored(db, crypto.encode(Claims(Some(db.users[email].email), Refresh, refreshExpiry))))
    ensures r.result.Failure? ==> r.db == db
    ensures r.result.Success? ==>
              && r.result.value.tokenType == BearerType
              && r.result.value.accessToken == crypto.encode(Claims(Some(db.users[email].email), Access, accessExpiry))
              && r.result.value.refreshToken == crypto.encode(Claims(Some(db.users[email].email), Refresh, refreshExpiry))
              && r.db == db.(refreshTokens := db.refreshTokens +
                                              [RefreshRow(r.result.value.refreshToken, db.users[email].userId, false)])
  {
    if email !in db.users then Reply(db, Failure(InvalidUser))
    else
      var user := db.users[email];
      if !crypto.verify(password, user.hashedPassword) then Reply(db, Failure(InvalidPassword))
      else
        IssueTokens(db, user, crypto, accessExpiry, refreshExpiry)
  }

  /** Logging in twice with the same refresh expiry (the same second) is
      refused the second time with a 500, and stores nothing. */
  lemma SameSecondLoginRefused(db: Db, email: string, password: string, crypto: Crypto, ae: int, ae2: int, re: int)
    requires Login(db, email, password, crypto, ae, re).result.Success?
    ensures var first := Login(db, email, password, crypto, ae, re);
            Login(first.db, email, password, crypto, ae2, re) == Reply(first.db, Failure(InternalServerError))
  {
    var first := Login(db, email, password, crypto, ae, re);
    var k := |first.db.refreshTokens| - 1;
    assert first.db.refreshTokens[k].refreshToken == first.result.value.refreshToken;
  }

  /** Login never stores a second record for a token, so the unique
      column is never violated by a successful login. */
  lemma LoginKeepsRefreshTokensUnique(db: Db, email: string, password: string, crypto: Crypto, ae: int, re: int)
    requires RefreshTokensUnique(db)
    ensures RefreshTokensUnique(Login(db, email, password, crypto, ae, re).db)
    ensures RefreshTokensUnique(LoginAsWritten(db, email, password, crypto, ae, re).db)
  {
  }

  /** The two agree wherever the as-written route does not crash. */
  lemma LoginAgreesOnKnownEmails(db: Db, email: string, password: string, crypto: Crypto, ae: int, re: int)
    requires email in db.users
    ensures LoginAsWritten(db, email, password, crypto, ae, re) == Login(db, email, password, crypto, ae, re)
  {
  }

  /** Index of the first refresh record of a user, in storage order. */
  function FirstFor(rs: seq<RefreshRow>, uid: string): (k: Option<nat>)
    ensures k.None? <==> forall j :: 0 <= j < |rs| ==> rs[j].userId != uid
    ensures k.Some? ==> k.value < |rs| && rs[k.value].userId == uid
                        && forall j :: 0 <= j < k.value ==> rs[j].userId != uid
  {
    if |rs| == 0 then None
    else if rs[0].userId == uid then Some(0)
    else
      match FirstFor(rs[1..], uid)
      case None => None
      case Some(k) => Some(k + 1)
  }

  /** Sets `is_expired` on the user's first refresh record, if any. */
  function ExpireFirst(rs: seq<RefreshRow>, uid: string): (r: seq<RefreshRow>)
    ensures |r| == |rs|
    ensures FirstFor(rs, uid).None? ==> r == rs
    ensures FirstFor(rs, uid).Some? ==>
              var k := FirstFor(rs, uid).value;
              && r[k] == rs[k].(isExpired := true)
              && forall j :: 0 <= j < |rs| && j != k ==> r[j] == rs[j]
  {
    match FirstFor(rs, uid)
    case None => rs
    case Some(k) => rs[k := rs[k].(isExpired := true)]
  }

  /** `logout`: authenticate, blacklist the presented token, expire the
      user's first refresh record. */
  function Logout(db: Db, token: string, crypto: Crypto): (r: Reply<string>)
    ensures GetCurrentUser(db, token, crypto).Failure? ==>
              r == Reply(db, Failure(GetCurrentUser(db, token, crypto).error))
    ensures r.result.Success? <==> GetCurrentUser(db, token, crypto).Success?
    ensures r.result.Success? ==>
              && r.result.value == LogoutMessage
              && r.db.users == db.users && r.db.posts == db.posts
              && r.db.blacklist == db.blacklist + {token}
              && r.db.refreshTokens == ExpireFirst(db.refreshTokens, GetCurrentUser(db, token, crypto).value.userId)
  {
    match GetCurrentUser(db, token, crypto)
    case Failure(e) => Reply(db, Failure(e))
    case Success(user) =>
      var revoked := db.(blacklist := db.blacklist + {token});
      Reply(revoked.(refreshTokens := ExpireFirst(revoked.refreshTokens, user.userId)), Success(LogoutMessage))
  }

  /** After a logout the same token is refused as revoked. */
  lemma LogoutRevokesToken(db: Db, token: string, crypto: Crypto)
    requires Logout(db, token, crypto).result.Success?
    ensures GetCurrentUser(Logout(db, token, crypto).db, token, crypto) == Failure(BlacklistedToken)
  {
  }

  /** A second logout with the same token fails and changes nothing. */
  lemma LogoutTwiceFails(db: Db, token: string, crypto: Crypto)
    requires Logout(db, token, crypto).result.Success?
    ensures var once := Logout(db, token, crypto).db;
            Logout(once, token, crypto) == Reply(once, Failure(BlacklistedToken))
  {
    LogoutRevokesToken(db, token, crypto);
  }

  /** `/me`: the current user through the response schema. */
  function GetMe(db: Db, token: string, crypto: Crypto): (r: Result<UserResponse, HttpError>)
    ensures r.Success? <==> GetCurrentUser(db, token, crypto).Success?
    ensures r.Failure? ==> r.error == GetCurrentUser(db, token, crypto).error
    ensures r.Success? ==> r.value == Public(GetCurrentUser(db, token, crypto).value)
  {
    var user :- GetCurrentUser(db, token, crypto);
    Success(Public(user))
  }

  /** A fresh login's access token identifies the user, while it decodes. */
  lemma LoginThenMe(db: Db, email: string, password: string, crypto: Crypto, ae: int, re: int)
    requires WellKeyed(db)
    requires Login(db, email, password, crypto, ae, re).result.Success?
    requires email != "" && DecodesTo(crypto, Claims(Some(email), Access, ae))
    requires crypto.encode(Claims(Some(email), Access, ae)) !in db.blacklist
    ensures var r := Login(db, email, password, crypto, ae, re);
            GetMe(r.db, r.result.value.accessToken, crypto) == Success(Public(db.users[email]))
  {
  }

  /** Registering and then logging in with the same password succeeds, for
      any hash whose verify accepts what it hashed. */
  lemma RegisterThenLogin(db: Db, username: string, email: string, password: string, newId: string,
                          crypto: Crypto, constrained: bool, ae: int, re: int)
    requires crypto.verify(password, crypto.hash(password))
    requires Register(db, username, email, password, newId, crypto, constrained).result.Success?
    ensures var after := Register(db, username, email, password, newId, crypto, constrained).db;
            Login(after, email, password, crypto, ae, re).result.Success? <==>
              !RefreshStored(db, crypto.encode(Claims(Some(email), Refresh, re)))
  {
  }

  /** `create_post`. The new id (`gen_random_uuid`) is a parameter; a clash
      with an existing post fails the commit. */
  function CreatePost(db: Db, token: string, title: string, content: string, newId: string, crypto: Crypto)
    : (r: Reply<PostRow>)
    ensures GetCurrentUser(db, token, crypto).Failure? ==>
              r == Reply(db, Failure(GetCurrentUser(db, token, crypto).error))
    ensures GetCurrentUser(db, token, crypto).Success? && newId in db.posts ==>
              r == Reply(db, Failure(InternalServerError))
    ensures r.result.Success? <==> GetCurrentUser(db, token, crypto).Success? && newId !in db.posts
    ensures r.result.Success? ==>
              && r.result.value == PostRow(newId, GetCurrentUser(db, token, crypto).value.userId, title, content)
              && r.db == db.(posts := db.posts[newId := r.result.value])
  {
    match GetCurrentUser(db, token, crypto)
    case Failure(e) => Reply(db, Failure(e))
    case Success(user) =>
      if newId in db.posts then Reply(db, Failure(InternalServerError))
      else
        var post := PostRow(newId, user.userId, title, content);
        Reply(db.(posts := db.posts[newId := post]), Success(post))
  }

  /** `view_post`: no authentication; the post or a 404. */
  function ViewPost(db: Db, id: string): (r: Result<PostRow, HttpError>)
    ensures r.Success? <==> id in db.posts
    ensures r.Success? ==> r.value == db.posts[id]
    ensures r.Failure? ==> r.error == PostNotFound && Status(r.error) == 404
  {
    if id in db.posts then Success(db.posts[id]) else Failure(PostNotFound)
  }

  /** The post the update and delete queries select: matching id AND owner.
      It holds exactly when `/view-post` would show a post owned by user. */
  function OwnedBy(db: Db, id: string, user: UserRow): (b: bool)
    ensures b <==> ViewPost(db, id).Success? && ViewPost(db, id).value.postOwner == user.userId
  {
    id in db.posts && db.posts[id].postOwner == user.userId
  }

  /** `update_post`: owner-only, whatever the caller's role; overwrites the
      title and the content. */
  function UpdatePost(db: Db, token: string, id: string, title: string, content: string, crypto: Crypto)
    : (r: Reply<string>)
    ensures GetCurrentUser(db, token, crypto).Failure? ==>
              r == Reply(db, Failure(GetCurrentUser(db, token, crypto).error))
    ensures GetCurrentUser(db, token, crypto).Success? && !OwnedBy(db, id, GetCurrentUser(db, token, crypto).value) ==>
              r == Reply(db, Failure(PostNotFound))
    ensures r.result.Success? <==>
              GetCurrentUser(db, token, crypto).Success? && OwnedBy(db, id, GetCurrentUser(db, token, crypto).value)
    ensures r.result.Success? ==>
              && r.result.value == UpdatedMessage
              && r.db == db.(posts := db.posts[id := db.posts[id].(postTitle := title, postContent := content)])
  {
    match GetCurrentUser(db, token, crypto)
    case Failure(e) => Reply(db, Failure(e))
    case Success(user) =>
      if !OwnedBy(db, id, user) then Reply(db, Failure(PostNotFound))
      else
        var post := db.posts[id];
        Reply(db.(posts := db.posts[id := post.(postTitle := title, postContent := content)]), Success(UpdatedMessage))
  }

  /** `delete_post`: owner-only; removes exactly that post. */
  function DeletePost(db: Db, token: string, id: string, crypto: Crypto): (r: Reply<string>)
    ensures GetCurrentUser(db, token, crypto).Failure? ==>
              r == Reply(db, Failure(GetCurrentUser(db, token, crypto).error))
    ensures GetCurrentUser(db, token, crypto).Success? && !OwnedBy(db, id, GetCurrentUser(db, token, crypto).value) ==>
              r == Reply(db, Failure(PostNotFound))
    ensures r.result.Success? <==>
              GetCurrentUser(db, token, crypto).Success? && OwnedBy(db, id, GetCurrentUser(db, token, crypto).value)
    ensures r.result.Success? ==>
              && r.result.value == DeletedMessage
              && r.db == db.(posts := db.posts - {id})
  {
    match GetCurrentUser(db, token, crypto)
    case Failure(e) => Reply(db, Failure(e))
    case Success(user) =>
      if !OwnedBy(db, id, user) then Reply(db, Failure(PostNotFound))
      else Reply(db.(posts := db.posts - {id}), Success(DeletedMessage))
  }

  /** No role overrides ownership: an authenticated caller who does not own
      the post gets a 404 from both update and delete, admin or not, and the
      store is unchanged. */
  lemma NoRoleOverride(db: Db, token: string, id: string, title: string, content: string, crypto: Crypto)
    requires GetCurrentUser(db, token, crypto).Success?
    requires GetCurrentUser(db, token, crypto).value.userRole == Some("admin")
    requires id in db.posts && db.posts[id].postOwner != GetCurrentUser(db, token, crypto).value.userId
    ensures UpdatePost(db, token, id, title, content, crypto) == Reply(db, Failure(PostNotFound))
    ensures DeletePost(db, token, id, crypto) == Reply(db, Failure(PostNotFound))
  {
  }

  /** An update is visible to the unauthenticated view; the post keeps its
      id and owner. */
  lemma UpdateThenView(db: Db, token: string, id: string, title: string, content: string, crypto: Crypto)
    requires UpdatePost(db, token, id, title, content, crypto).result.Success?
    ensures var v := ViewPost(UpdatePost(db, token, id, title, content, crypto).db, id);
            && v.Success? && v.value.postTitle == title && v.value.postContent == content
            && v.value.postOwner == db.posts[id].postOwner && v.value.postId == db.posts[id].postId
  {
  }

  /** A deleted post is gone for the viewer; the other posts remain. */
  lemma DeleteThenView(db: Db, token: string, id: string, other: string, crypto: Crypto)
    requires DeletePost(db, token, id, crypto).result.Success?
    ensures ViewPost(DeletePost(db, token, id, crypto).db, id) == Failure(PostNotFound)
    ensures other != id ==> ViewPost(DeletePost(db, token, id, crypto).db, other) == ViewPost(db, other)
  {
  }

  /** A created post can be viewed, updated and deleted by its author. */
  lemma CreatorOwnsPost(db: Db, token: string, title: string, content: string, newId: string, crypto: Crypto)
    requires CreatePost(db, token, title, content, newId, crypto).result.Success?
    ensures var after := CreatePost(db, token, title, content, newId, crypto).db;
            && ViewPost(after, newId).Success?
            && UpdatePost(after, token, newId, title, content, crypto).result.Success?
            && DeletePost(after, token, newId, crypto).result.Success?
  {
  }

  /** Every route keeps each user under its own email and each post under
      its own id. */
  lemma RoutesPreserveWellKeyed(db: Db, token: string, id: string, username: string, email: string,
                                password: string, title: string, content: string, crypto: Crypto,
                                constrained: bool, ae: int, re: int)
    requires WellKeyed(db)
    ensures WellKeyed(RegisterAsWritten(db, username, email, password, id, crypto, constrained).db)
    ensures WellKeyed(Register(db, username, email, password, id, crypto, constrained).db)
    ensures WellKeyed(Login(db, email, password, crypto, ae, re).db)
    ensures WellKeyed(LoginAsWritten(db, email, password, crypto, ae, re).db)
    ensures WellKeyed(Logout(db, token, crypto).db)
    ensures WellKeyed(CreatePost(db, token, title, content, id, crypto).db)
    ensures WellKeyed(UpdatePost(db, token, id, title, content, crypto).db)
    ensures WellKeyed(DeletePost(db, token, id, crypto).db)
  {
  }

  /** Every stored role satisfies `valid_user_role`. */
  ghost predicate RolesValid(db: Db) {
    forall e :: e in db.users ==> RoleConstraint.ValidUserRole(db.users[e].userRole)
  }

  /** The corrected routes keep every role valid; the as-written register
      does not. */
  lemma CorrectedRoutesPreserveRoles(db: Db, token: string, id: string, username: string, email: string,
                                     password: string, title: string, content: string, crypto: Crypto,
                                     constrained: bool, ae: int, re: int)
    requires RolesValid(db)
    ensures RolesValid(Register(db, username, email, password, id, crypto, constrained).db)
    ensures RolesValid(Login(db, email, password, crypto, ae, re).db)
    ensures RolesValid(Logout(db, token, crypto).db)
    ensures RolesValid(CreatePost(db, token, title, content, id, crypto).db)
    ensures RolesValid(UpdatePost(db, token, id, title, content, crypto).db)
    ensures RolesValid(DeletePost(db, token, id, crypto).db)
  {
    RoleConstraint.DefaultsAgainstConstraint();
  }
}

=== FILE: search.dfy ===
/** `pages/Search.tsx`: the blank-query guard, the result and error updates
    of `handleSearch`, and when the search button is enabled. */
module SearchPage {
  import opened Common
  import opened Types
  import opened Text

  const EmptyQueryMessage: string := "Please enter a search query."
  const SearchFailedMessage: string := "Failed to perform search."

  /** The page's state cells. */
  datatype Page = Page(query: string, results: Option<SearchResult>, error: string, isLoading: bool)

  /** `handleSearch`. */
  function HandleSearch(s: Page, found: Outcome<SearchResult>): (r: Step<Page>)
    ensures Blank(s.query) ==> r == Step(s.(error := EmptyQueryMessage), [], None)
    ensures !Blank(s.query) ==> r.calls == [SearchCall(s.query)] && !r.state.isLoading && r.navigate.None?
    ensures !Blank(s.query) && found.Ok? ==> r.state == s.(results := Some(found.value), error := "", isLoading := false)
    ensures !Blank(s.query) && found.Failed? ==>
              r.state == s.(error := ErrorText(found.detail, SearchFailedMessage), isLoading := false)
  {
    TrimEmptyIffBlank(s.query);
    if Trim(s.query) == [] then Step(s.(error := EmptyQueryMessage), [], None)
    else
      var busy := s.(isLoading := true);
      match found
      case Ok(data) => Step(busy.(results := Some(data), error := "", isLoading := false), [SearchCall(s.query)], None)
      case Failed(detail) =>
        Step(busy.(error := ErrorText(detail, SearchFailedMessage), isLoading := false), [SearchCall(s.query)], None)
  }

  /** `disabled={!query.trim() || isLoading}`, negated. */
  function ButtonEnabled(s: Page): (r: bool)
    ensures r <==> !Blank(s.query) && !s.isLoading
  {
    TrimEmptyIffBlank(s.query);
    Trim(s.query) != [] && !s.isLoading
  }

  /** Whenever the button is enabled, pressing it issues the search. */
  lemma EnabledButtonSearches(s: Page, found: Outcome<SearchResult>)
    requires ButtonEnabled(s)
    ensures HandleSearch(s, found).calls == [SearchCall(s.query)]
  {
  }

  /** A failed search keeps the previous results on screen. */
  lemma FailureKeepsResults(s: Page, detail: Option<string>)
    ensures HandleSearch(s, Failed(detail)).state.results == s.results
  {
  }
}

=== FILE: signup.dfy ===
/** `pages/Signup.tsx`: the password confirmation and strength checks that
    guard the `/register` call. */
module SignupPage {
  import opened Common
  import opened Types
  import opened Text

  const MismatchMessage: string := "Password does not match !"
  const WeakMessage: string := "Password must be at least 8 characters long, contain an uppercase letter and a number !"
  const FailedMessage: string := "Sign Up Failed! Please try again."

  /** The form's state cells. */
  datatype Form = Form(username: string, email: string, password: string, confirmPassword: string, error: string)

  /** `/[lo-hi]/.test(p)`, as a scan: some character lies in the range. */
  function HasInRange(p: string, lo: char, hi: char): (r: bool)
    ensures r <==> exists i :: 0 <= i < |p| && lo <= p[i] <= hi
  {
    if |p| == 0 then false
    else if lo <= p[0] <= hi then true
    else
      assert forall i :: 1 <= i < |p| ==> p[i] == p[1..][i - 1];
      HasInRange(p[1..], lo, hi)
  }

  /** The strength rule: `length` at least 8 (UTF-16 code units), an ASCII
      capital and a digit. */
  function Strong(p: string): (b: bool)
    ensures b <==> && Utf16Length(p) >= 8
                   && (exists i :: 0 <= i < |p| && 'A' <= p[i] <= 'Z')
                   && (exists i :: 0 <= i < |p| && '0' <= p[i] <= '9')
    ensures b ==> |p| >= 4
  {
    Utf16Length(p) >= 8 && HasInRange(p, 'A', 'Z') && HasInRange(p, '0', '9')
  }

  /** `handleSubmit`: the two checks in order, then the call. */
  function HandleSubmit(s: Form, signup: Outcome<User>): (r: Step<Form>)
    ensures s.password != s.confirmPassword ==> r == Step(s.(error := MismatchMessage), [], None)
    ensures s.password == s.confirmPassword && !Strong(s.password) ==>
              r == Step(s.(error := WeakMessage), [], None)
    ensures r.calls != [] <==> s.password == s.confirmPassword && Strong(s.password)
    ensures r.calls != [] ==> r.calls == [SignupCall(s.username, s.email, s.password)]
    ensures r.navigate.Some? <==> r.calls != [] && signup.Ok?
    ensures r.navigate.Some? ==> r.navigate.value == "/login" && r.state.error == ""
    ensures r.calls != [] && signup.Failed? ==> r.state == s.(error := ErrorText(signup.detail, FailedMessage))
  {
    var cleared := s.(error := "");
    if s.password != s.confirmPassword then Step(cleared.(error := MismatchMessage), [], None)
    else if !Strong(s.password) then Step(cleared.(error := WeakMessage), [], None)
    else
      var call := SignupCall(s.username, s.email, s.password);
      match signup
      case Ok(_) => Step(cleared, [call], Some("/login"))
      case Failed(detail) => Step(cleared.(error := ErrorText(detail, FailedMessage)), [call], None)
  }

  /** An accepted password has the three properties, and only those are
      asked: no lower-case letter or symbol is needed. */
  lemma AcceptedPasswordShape(s: Form, signup: Outcome<User>)
    requires HandleSubmit(s, signup).calls != []
    ensures Utf16Length(s.password) >= 8 && |s.password| >= 4
    ensures exists i :: 0 <= i < |s.password| && 'A' <= s.password[i] <= 'Z'
    ensures exists i :: 0 <= i < |s.password| && '0' <= s.password[i] <= '9'
  {
  }

  /** `ABCDEFG1` passes, though it has no lower-case letter. */
  lemma UpperAndDigitSuffice()
    ensures Strong("ABCDEFG1")
  {
    assert "ABCDEFG1"[0] == 'A';
    assert "ABCDEFG1"[7] == '1';
  }

  /** The length counts code units, not characters: four emoji outside the
      Basic Multilingual Plane plus `A1` make six characters but ten units,
      and pass. */
  lemma AstralCharactersCountTwice()
    ensures Strong("\U{1F600}\U{1F600}\U{1F600}\U{1F600}A1")
    ensures |"\U{1F600}\U{1F600}\U{1F600}\U{1F600}A1"| == 6
  {
    var p := "\U{1F600}\U{1F600}\U{1F600}\U{1F600}A1";
    assert Utf16Length(p[5..]) == 1;
    assert Utf16Length(p[4..]) == 2;
    assert Utf16Length(p[3..]) == 4;
    assert Utf16Length(p[2..]) == 6;
    assert Utf16Length(p[1..]) == 8;
    assert p[4] == 'A' && p[5] == '1';
  }

  /** The mismatch check comes first: a weak, mismatched password reports
      the mismatch. */
  lemma MismatchReportedBeforeStrength(s: Form, signup: Outcome<User>)
    requires s.password != s.confirmPassword && !Strong(s.password)
    ensures HandleSubmit(s, signup).state.error == MismatchMessage
  {
  }
}

=== FILE: sql.dfy ===
/** The fragment of PostgreSQL the migrations rely on: three-valued `IN`,
    CHECK constraint acceptance, `right` and `lower`. */
module Sql {
  import opened Common
  import Text

  /** SQL's three truth values. */
  datatype Truth = True | False | Unknown

  /** `v IN (list)` for a nullable v and a list of non-null literals. */
  function InList(v: Option<string>, list: seq<string>): (t: Truth)
    ensures v.None? <==> t == Unknown
    ensures v.Some? ==> (t == True <==> v.value in list)
  {
    if v.None? then Unknown else if Includes(list, v.value) then True else False
  }

  /** A CHECK constraint rejects a row only when its condition is false;
      unknown passes. */
  predicate CheckPasses(t: Truth) {
    t != False
  }

  /** `right(s, n)` for n >= 0: the last n characters, or all of s. */
  function Right(s: string, n: nat): (r: string)
    ensures |r| <= n && |r| <= |s|
    ensures |s| >= n ==> r == s[|s| - n..]
    ensures |s| < n ==> r == s
  {
    if |s| < n then s else s[|s| - n..]
  }

  /** `lower(s)` on ASCII letters. */
  function Lower(s: string): string {
    Text.Lower(s)
  }

  /** Errors a migration statement can raise. */
  datatype MigrationError = CheckViolation | DuplicateObject | UndefinedObject
}

=== FILE: store.dfy ===
/** The backend's persistent state as abstract maps, the HTTP errors the
    auth routes raise, and the cryptographic primitives the routes call
    (bcrypt and JWT), kept uninterpreted. */
module Store {
  import opened Common

  /** The exceptions the routes raise, plus the 500 an unhandled Python
      error or a failed INSERT turns into. */
  datatype HttpError =
    | CredentialException
    | UserExistedCheck
    | InvalidPassword
    | InvalidUser
    | BlacklistedToken
    | PostNotFound
    | InternalServerError

  /** The `status_code` each exception class passes to `HTTPException`. */
  function Status(e: HttpError): (code: nat)
    ensures 400 <= code < 600
  {
    match e
    case CredentialException => 404
    case UserExistedCheck => 400
    case InvalidPassword => 401
    case InvalidUser => 404
    case BlacklistedToken => 401
    case PostNotFound => 404
    case InternalServerError => 500
  }

  /** The message of each error: the `detail` each exception class passes
      to `HTTPException`, and for an unhandled error the text of the
      plain-text 500 body the server answers with. */
  function Detail(e: HttpError): (r: string)
    ensures r != []
  {
    match e
    case CredentialException => "Could not validate credential"
    case UserExistedCheck => "Email already existed !"
    case InvalidPassword => "Invalid Password !"
    case InvalidUser => "Invalid User - User not found !"
    case BlacklistedToken => "Token has been revoked !"
    case PostNotFound => "Post not found !"
    case InternalServerError => "Internal Server Error"
  }

  /** The `detail` field of the JSON error body the client receives. Every
      exception class has one; an unhandled error is answered with a
      plain-text 500, whose body has no `detail`. */
  function JsonDetail(e: HttpError): (r: Option<string>)
    ensures r.None? <==> e == InternalServerError
    ensures r.Some? ==> r.value == Detail(e)
  {
    if e == InternalServerError then None else Some(Detail(e))
  }

  /** The exception table in full: the status and detail of every error. */
  lemma ExceptionTable()
    ensures Status(CredentialException) == 404 && Detail(CredentialException) == "Could not validate credential"
    ensures Status(UserExistedCheck) == 400 && Detail(UserExistedCheck) == "Email already existed !"
    ensures Status(InvalidPassword) == 401 && Detail(InvalidPassword) == "Invalid Password !"
    ensures Status(InvalidUser) == 404 && Detail(InvalidUser) == "Invalid User - User not found !"
    ensures Status(BlacklistedToken) == 401 && Detail(BlacklistedToken) == "Token has been revoked !"
    ensures Status(PostNotFound) == 404 && Detail(PostNotFound) == "Post not found !"
    ensures Status(InternalServerError) == 500 && Detail(InternalServerError) == "Internal Server Error"
  {
  }

  /** A credential that does not validate is reported as 404, not 401: by
      status it is indistinguishable from a missing user or post, and only
      the detail tells them apart. */
  lemma CredentialFailureLooksLikeNotFound(e: HttpError)
    requires Status(e) == 401
    ensures Status(CredentialException) == Status(InvalidUser) == Status(PostNotFound) == 404
    ensures e != CredentialException
    ensures Detail(CredentialException) != Detail(InvalidUser) && Detail(CredentialException) != Detail(PostNotFound)
  {
  }

  /** Different errors carry different details. */
  lemma DetailsDistinct(a: HttpError, b: HttpError)
    requires a != b
    ensures Detail(a) != Detail(b)
  {
  }

  /** A row of `users`. */
  datatype UserRow = UserRow(userId: string, username: string, email: string, hashedPassword: string,
                             userRole: Option<string>)

  /** A row of `posts`; timestamps are left out. */
  datatype PostRow = PostRow(postId: string, postOwner: string, postTitle: string, postContent: string)

  /** A row of `refresh_token`. */
  datatype RefreshRow = RefreshRow(refreshToken: string, userId: string, isExpired: bool)

  /** Users by email (the column is unique), posts by id, the blacklisted
      tokens, and the refresh-token records in storage order. */
  datatype Db = Db(users: map<string, UserRow>, posts: map<string, PostRow>, blacklist: set<string>,
                   refreshTokens: seq<RefreshRow>)

  /** Each user is stored under its own email and each post under its own id. */
  ghost predicate WellKeyed(db: Db) {
    && (forall e :: e in db.users ==> db.users[e].email == e)
    && (forall id :: id in db.posts ==> db.posts[id].postId == id)
  }

  /** The `token_type` claim a token is minted with. */
  datatype TokenType = Access | Refresh

  /** A JWT payload: `sub` (absent, or any string), `type`, and the opaque
      expiry stamp. */
  datatype Claims = Claims(sub: Option<string>, tokenType: TokenType, expiry: int)

  /** bcrypt and jose, uninterpreted. `decode` yields None for every token
      jose rejects (bad signature, expired, malformed). */
  datatype Crypto = Crypto(hash: string -> string, verify: (string, string) -> bool,
                           encode: Claims -> string, decode: string -> Option<Claims>)

  /** What the routes assume of jose for a token still within its lifetime. */
  predicate DecodesTo(crypto: Crypto, c: Claims) {
    crypto.decode(crypto.encode(c)) == Some(c)
  }

  /** A route's effect: the store afterwards, and the response or the error. */
  datatype Reply<T> = Reply(db: Db, result: Result<T, HttpError>)
}

=== FILE: text.dfy ===
/** The string primitives the client validators rely on: `toLowerCase`,
    `slice(-n)` and `trim`, as JavaScript defines them on the characters
    this model covers. */
module Text {

  /** Case mapping of one character, restricted to ASCII letters. */
  function LowerChar(c: char): char {
    if 'A' <= c <= 'Z' then (c as int + 32) as char else c
  }

  /** `s.toLowerCase()` on ASCII letters; every other character is kept. */
  function Lower(s: string): (r: string)
    ensures |r| == |s|
    ensures forall i :: 0 <= i < |s| ==> r[i] == LowerChar(s[i])
  {
    if |s| == 0 then [] else [LowerChar(s[0])] + Lower(s[1..])
  }

  /** `s.slice(-n)`: the last n characters, or the whole string when it is
      shorter than n. Since `-0` is `0`, `slice(-0)` is the whole string. */
  function SliceLast(s: string, n: nat): (r: string)
    ensures n == 0 ==> r == s
    ensures n > 0 ==> |r| == if |s| < n then |s| else n
    ensures r == s[|s| - |r|..]
  {
    if n == 0 || |s| <= n then s else s[|s| - n..]
  }

  /** `s.length` in JavaScript: UTF-16 code units, so a character outside
      the Basic Multilingual Plane (above U+FFFF) counts twice. */
  function Utf16Length(s: string): (n: nat)
    ensures |s| <= n <= 2 * |s|
    ensures n == |s| <==> forall i :: 0 <= i < |s| ==> s[i] as int <= 0xFFFF
  {
    if |s| == 0 then 0
    else
      assert forall i :: 1 <= i < |s| ==> s[i] == s[1..][i - 1];
      (if s[0] as int > 0xFFFF then 2 else 1) + Utf16Length(s[1..])
  }

  /** Lowering and taking a suffix commute, because lowering keeps length. */
  lemma {:induction false} LowerSuffix(s: string, k: nat)
    requires k <= |s|
    ensures Lower(s[k..]) == Lower(s)[k..]
  {
    var a, b := Lower(s[k..]), Lower(s)[k..];
    assert |a| == |b|;
    forall i | 0 <= i < |a|
      ensures a[i] == b[i]
    {
      assert s[k..][i] == s[k + i];
    }
  }

  /** The characters ECMAScript's `trim` removes: WhiteSpace (TAB, VT, FF,
      SP, NBSP, ZWNBSP and the Zs category) and LineTerminator (LF, CR, LS,
      PS). */
  predicate IsJsWhitespace(c: char) {
    || c == '\t' || c == '\n' || c == '\U{000B}' || c == '\U{000C}' || c == '\r'
    || c == ' ' || c == '\U{00A0}' || c == '\U{1680}'
    || ('\U{2000}' <= c <= '\U{200A}')
    || c == '\U{2028}' || c == '\U{2029}' || c == '\U{202F}' || c == '\U{205F}'
    || c == '\U{3000}' || c == '\U{FEFF}'
  }

  /** Every character of s is whitespace (the empty string included). */
  predicate Blank(s: string) {
    forall i :: 0 <= i < |s| ==> IsJsWhitespace(s[i])
  }

  /** `trimStart`: drop leading whitespace. */
  function TrimStart(s: string): (r: string)
    ensures |r| <= |s| && r == s[|s| - |r|..]
    ensures Blank(s[..|s| - |r|])
    ensures r == [] || !IsJsWhitespace(r[0])
  {
    if |s| > 0 && IsJsWhitespace(s[0]) then
      var r := TrimStart(s[1..]);
      assert s[..|s| - |r|] == [s[0]] + s[1..][..|s| - 1 - |r|];
      r
    else s
  }

  /** `trimEnd`: drop trailing whitespace. */
  function TrimEnd(s: string): (r: string)
    ensures |r| <= |s| && r == s[..|r|]
    ensures Blank(s[|r|..])
    ensures r == [] || !IsJsWhitespace(r[|r| - 1])
  {
    if |s| > 0 && IsJsWhitespace(s[|s| - 1]) then
      var r := TrimEnd(s[..|s| - 1]);
      assert s[|r|..] == s[..|s| - 1][|r|..] + [s[|s| - 1]];
      r
    else s
  }

  /** `s.trim()`. */
  function Trim(s: string): string {
    TrimEnd(TrimStart(s))
  }

  /** `!s.trim()` holds exactly for the strings made only of whitespace. */
  lemma TrimEmptyIffBlank(s: string)
    ensures Trim(s) == [] <==> Blank(s)
  {
    var t := TrimStart(s);
    if Trim(s) == [] {
      assert Blank(t[0..]);
      assert t == [];
      assert s == s[..|s| - |t|];
    } else {
      assert t != [];
      assert s[|s| - |t|] == t[0];
      assert !IsJsWhitespace(s[|s| - |t|]);
    }
  }
}

=== FILE: types.dfy ===
/** The client's records (the interfaces of `types/index.ts`), the API calls
    the pages issue, and the shape every page handler returns. */
module Types {
  import opened Common

  /** `User`; `password` is optional in the interface and only ever set by
      the account page's payload overlay. */
  datatype User = User(userId: string, username: string, email: string, password: Option<string>, userRole: string)

  /** `Post`. `ownerRole` is read by the post detail page although the
      interface does not declare it, so it may be absent. */
  datatype Post = Post(postId: string, postOwner: string, postTitle: string, postContent: string,
                       createdAt: string, updatedAt: string, ownerRole: Option<string>)

  /** `ReadingDocumentResponse`. */
  datatype Document = Document(docsId: string, docsOwner: string, docsTitle: string, docsDescription: string,
                               docsTags: string, docsFilePath: string, uploadedAt: string)

  /** `Search`: the combined result of one query. */
  datatype SearchResult = SearchResult(postResult: seq<Post>, documentResult: seq<Document>)

  /** Every outbound request a modelled handler can make, with the data it
      carries. */
  datatype ApiCall =
    | LogoutFetch(authorization: string, refreshToken: string)
    | RefreshFetch(refreshToken: string)
    | LoginCall(email: string, password: string)
    | GetUserCall
    | GetAllUsersCall
    | SignupCall(username: string, email: string, password: string)
    | CreatePostCall(title: string, content: string)
    | GetMyPostsCall
    | GetPostCall(id: string)
    | UpdatePostCall(id: string, title: string, content: string)
    | DeletePostCall(id: string)
    | UpdateUserCall(newUsername: Option<string>, newPassword: Option<string>)
    | UpdateUserRoleCall(userId: string, newRole: string)
    | UploadCall(title: string, description: string, tags: string, fileName: string)
    | SearchCall(query: string)

  /** What one handler run leaves behind: the page's next state, the
      requests it sent in order, and where it navigated, if anywhere. */
  datatype Step<S> = Step(state: S, calls: seq<ApiCall>, navigate: Option<string>)
}

=== FILE: upload.dfy ===
/** `pages/UploadDocument.tsx`: the ordered validation chain in front of the
    upload call, and the form reset after success. */
module UploadDocument {
  import opened Common
  import opened Types
  import opened Text

  const NoFileMessage: string := "Please select a file."
  const ExtensionMessage: string := "Only .pdf and .docx files are allowed."
  const TitleRequiredMessage: string := "Title is required."
  const TitleLongMessage: string := "Title must be 100 characters or less."
  const DescriptionLongMessage: string := "Description must be 500 characters or less."
  const TagsLongMessage: string := "Tags must be 100 characters or less."
  const UploadedMessage: string := "File uploaded successfully!"
  const UploadFailedMessage: string := "Upload failed."

  const AllowedExtensions: seq<string> := [".pdf", ".docx"]

  /** The form's state cells; a chosen file is represented by its name. */
  datatype Form = Form(title: string, description: string, tags: string, file: Option<string>,
                       message: string, isLoading: bool)

  /** `allowedExtensions.includes(name.toLowerCase().slice(-4))`. It admits
      exactly the names whose last four characters are `.pdf` in any case:
      a four-character slice never equals `.docx`. */
  function ExtensionAllowed(name: string): (b: bool)
    ensures b <==> |name| >= 4 && Lower(name[|name| - 4..]) == ".pdf"
  {
    var ext := SliceLast(Lower(name), 4);
    assert |ext| <= 4 < |".docx"|;
    if |name| >= 4 then
      LowerSuffix(name, |name| - 4);
      Includes(AllowedExtensions, ext)
    else
      assert |ext| < |".pdf"|;
      Includes(AllowedExtensions, ext)
  }

  /** Hence no `.docx` file is ever accepted. */
  lemma DocxNeverAccepted(stem: string)
    ensures !ExtensionAllowed(stem + ".docx")
  {
    var name := stem + ".docx";
    LowerSuffix(name, |name| - 4);
    assert name[|name| - 4..] == "docx";
    assert Lower("docx")[0] == 'd';
  }

  /** The message of the first check the form fails, None when all pass. */
  function FirstFailure(s: Form): (m: Option<string>)
    ensures m == Some(NoFileMessage) <==> s.file.None?
    ensures m == Some(ExtensionMessage) <==> s.file.Some? && !ExtensionAllowed(s.file.value)
    ensures m == Some(TitleRequiredMessage) <==>
              s.file.Some? && ExtensionAllowed(s.file.value) && Trim(s.title) == []
    ensures m == Some(TitleLongMessage) <==>
              s.file.Some? && ExtensionAllowed(s.file.value) && Trim(s.title) != [] && Utf16Length(s.title) > 100
    ensures m == Some(DescriptionLongMessage) <==>
              s.file.Some? && ExtensionAllowed(s.file.value) && Trim(s.title) != [] && Utf16Length(s.title) <= 100
              && Utf16Length(s.description) > 500
    ensures m == Some(TagsLongMessage) <==>
              s.file.Some? && ExtensionAllowed(s.file.value) && Trim(s.title) != [] && Utf16Length(s.title) <= 100
              && Utf16Length(s.description) <= 500 && Utf16Length(s.tags) > 100
    ensures m.None? <==> Acceptable(s)
  {
    if s.file.None? then Some(NoFileMessage)
    else if !ExtensionAllowed(s.file.value) then Some(ExtensionMessage)
    else if Trim(s.title) == [] then Some(TitleRequiredMessage)
    else if Utf16Length(s.title) > 100 then Some(TitleLongMessage)
    else if Utf16Length(s.description) > 500 then Some(DescriptionLongMessage)
    else if Utf16Length(s.tags) > 100 then Some(TagsLongMessage)
    else None
  }

  /** All six conditions at once, independent of their order. */
  predicate Acceptable(s: Form) {
    && s.file.Some? && ExtensionAllowed(s.file.value)
    && !Blank(s.title) && Utf16Length(s.title) <= 100
    && Utf16Length(s.description) <= 500 && Utf16Length(s.tags) <= 100
  }

  /** `handleUpload`. */
  function HandleUpload(s: Form, upload: Outcome<()>): (r: Step<Form>)
    ensures !Acceptable(s) ==> r == Step(s.(message := FirstFailure(s).value), [], None)
    ensures Acceptable(s) ==>
              && r.calls == [UploadCall(s.title, s.description, s.tags, s.file.value)]
              && !r.state.isLoading
    ensures Acceptable(s) && upload.Ok? ==>
              r.state == Form("", "", "", None, UploadedMessage, false)
    ensures Acceptable(s) && upload.Failed? ==>
              r.state == s.(message := ErrorText(upload.detail, UploadFailedMessage), isLoading := false)
    ensures r.navigate.None?
  {
    TrimEmptyIffBlank(s.title);
    match FirstFailure(s)
    case Some(m) => Step(s.(message := m), [], None)
    case None =>
      var call := UploadCall(s.title, s.description, s.tags, s.file.value);
      var busy := s.(isLoading := true);
      match upload
      case Ok(_) =>
        Step(busy.(message := UploadedMessage, title := "", description := "", tags := "", file := None,
                   isLoading := false),
             [call], None)
      case Failed(detail) =>
        Step(busy.(message := ErrorText(detail, UploadFailedMessage), isLoading := false), [call], None)
  }

  /** The title limit counts the untrimmed title: surrounding whitespace can
      push a short title over 100. */
  lemma TitleLimitCountsWhitespace(s: Form)
    requires s.file.Some? && ExtensionAllowed(s.file.value)
    requires s.title == "x" + seq(100, _ => ' ')
    ensures FirstFailure(s) == Some(TitleLongMessage)
  {
    TrimEmptyIffBlank(s.title);
    assert !IsJsWhitespace(s.title[0]);
    assert forall i :: 0 <= i < |s.title| ==> s.title[i] as int <= 0xFFFF;
  }
}
